=== FILE: README.md ===
# vitaGL shader renderer: a Dafny model of its core

This project models the bookkeeping core of the vitaGL shader renderer. It
proves properties of that model. The renderer is a small C library for the PS Vita with a desktop (GLFW) build.
Every OpenGL, vitaGL or GLFW call is an event appended to an abstract trace (`Gl.Call`).
A trace can be replayed against the binding state it touches (`Gl.Run`) or
filtered by kind (`Gl.Keep`). Driver answers (shader ids, compile and link
results, buffer handles, the GPU buffer size, sampled controller words) are
parameters.

The model covers:

- **2D batch engine** (`Batch2D`, `Renderer2D`, `Shading2D`, `VglTypes`):
  - the packed vertex and draw-call layout and its byte sizes, per platform pointer width;
  - the pending draw-call array with its cursor and counter (`Vita_Draw`, `Vita_WriteVertices`, `Vita_ResetTotalCalls`, `clear`);
  - the upload, draw and state-restore trace of `repaint`;
  - the failure logic of `LoadShader`/`initGLShading`.
- **GL error names** (`GlErrors`): `GET_GL_ERROR`/`CHECK_GL_ERROR` of the 2D header, and `SAFE_GET_GL_ERROR`/`CHECK_GL_ERROR` of the 3D context.
- **3D context** (`Context3D`):
  - the context record and its Create/Begin/End/BindTexture/SetCamera transitions;
  - the packed quad constants and attribute layout;
  - the submission trace of `VGL3D_DrawQuad`;
  - the shader-initialisation failure logic.
- **Mesh lazy upload**, in two revisions (`MeshV1` for src/vgl3d/mesh/mesh.c, `MeshV2` for src/version2/mesh/mesh.c, `MeshDraw` for the draw step they share):
  - when a draw uploads;
  - what the upload clears and frees;
  - indexed versus non-indexed drawing;
  - the default cubes;
  - destruction.
- **Basic id map** (`BasicMap`): a bounded append-only array with increasing ids, positional lookup and linear id lookup.
- **Input** (`GlfwInput`, `Keyboard`, `Mouse`, `Gamepad`, `InputCommon`):
  - the GLFW keyboard and mouse RELEASE/PRESS/REPEAT state machines across callbacks and polls;
  - the Vita gamepad button bitmask;
  - the tagged input constructor.

Owned heap buffers are `Mem.Ptr` values. A `Dangling` pointer has been passed to `free`, so destroy functions and double frees can be stated.

## Model

| member | source | states |
|---|---|---|
| VglTypes.VertBytes | src/vgl_renderer.h:43-54 | the packed `vert` (eight floats then a pointer) is `VERTEX_ATTRIB_TOTAL_SIZE_1` bytes, strictly more than eight floats |
| VglTypes.DrawCallBytes | src/vgl_renderer.h:67-77 | a `DrawCall` is `VERTICES_PER_PRIM` packed vertices |
| VglTypes.PendingTotalSize | src/vgl_renderer.c:286 | the recorded storage size is `MAX_VERTICES * sizeof(DrawCall)` bytes, which exceeds the slot count `MAX_VERTICES` |
| VglTypes.AttributeSlices | src/vgl_renderer.h:29-40 | position [0,2), texcoord [2,4) and colour [4,8) tile the eight vertex elements exactly |
| VglTypes.AttributeSlicesDisjoint | src/vgl_renderer.h:29-40 | the three attribute slices are pairwise disjoint, ordered, and inside `VERTEX_ATTR_ELEM_COUNT` |
| VglTypes.TilesDisjoint | src/vgl_renderer.h:29-40 | any tiling of element slices is pairwise disjoint and stays within its range |
| Batch2D.Init | src/vgl_renderer.c:284-287 | after `initGLAdv` the batch has cursor and counter 0 and records the byte size of the storage |
| Batch2D.WriteVertices | src/vgl_renderer.c:45-96 | a NULL call is left alone; otherwise corners go in strip order (x,y),(x,y+h),(x+w,y),(x+w,y+h) with the fixed corner colours, and texcoords and `obj_ptr` are kept |
| Batch2D.WriteVerticesIgnoresColour | src/vgl_renderer.c:77-95 | the colour arguments never change what is written |
| Batch2D.Draw | src/vgl_renderer.c:98-126 | (slot-counting guard) a full batch drops the quad unchanged; otherwise the quad goes in the cursor's slot, cursor and counter each advance by one, and no other slot changes |
| Batch2D.DrawAsWritten | src/vgl_renderer.c:104-114 | the guard as written drops only when `cursor + 1` exceeds the byte size, so it may write a slot at or past the end of storage |
| Batch2D.DrawAsWrittenAgreesBelowCapacity | src/vgl_renderer.c:104-114 | below `MAX_VERTICES` slots the as-written guard stores exactly what the slot guard stores |
| Batch2D.AsWrittenGuardOverflows | src/vgl_renderer.c:104-111 | after 1024 accepted quads the as-written guard lets the next quad write slot 1024, past the storage |
| Batch2D.DrawAll | src/vgl_renderer.c:98-126 | any sequence of draws keeps the batch well formed (cursor equals counter, at most 1024) |
| Batch2D.DrawAllKeepsPrefix | src/vgl_renderer.c:98-126 | drawing N quads keeps the first ones that fit, quad k in slot cursor+k, drops the rest and leaves every other slot alone |
| Batch2D.DrawAllFromEmpty | src/vgl_renderer.c:98-126 | from an empty batch exactly min(N, 1024) quads are kept, quad i in slot i |
| Batch2D.TotalCalls | src/vgl_renderer.c:130-133 | the reported count equals the cursor and is at most `MAX_VERTICES` |
| Batch2D.ResetTotalCalls | src/vgl_renderer.c:135-139 | counter and cursor become 0; storage and byte size are kept |
| Batch2D.ResetIdempotent | src/vgl_renderer.c:135-139 | resetting twice equals resetting once |
| Batch2D.DrawAfterResetWritesSlotZero | src/vgl_renderer.c:135-139 | after a reset the next quad is accepted into slot 0 |
| Batch2D.Clear | src/vgl_renderer.c:389-393 | `clear` clears the colour buffer and resets the batch |
| Renderer2D.DivModOfRecord | src/vgl_renderer.c:438 | byte o of record k of an array of packed vertices lies in record k at offset o |
| Renderer2D.FetchAtRecordStride | src/vgl_renderer.c:491-494 | at stride `sizeof(vert)`, float e of vertex k is fetched from float e of vertex k |
| Renderer2D.CorrectedStrideReadsOwnVertex | src/vgl_renderer.c:491-494 | with stride `sizeof(vert)`, position and colour components of vertex k come from vertex k's own position and colour floats |
| Renderer2D.AsWrittenStrideReadsPointer | src/vgl_renderer.c:410 | with the declared stride of eight floats, vertex 1's position is read from vertex 0's `obj_ptr` bytes |
| Renderer2D.UploadLoop | src/vgl_renderer.c:435-474 | one upload-loop step per pending call, in order |
| Renderer2D.DrawLoop | src/vgl_renderer.c:506-509 | draw k is a triangle strip of `VERTICES_PER_PRIM` vertices starting at k * `VERTICES_PER_PRIM` |
| Renderer2D.FittingCalls | src/vgl_renderer.c:448-452 | the number of calls uploaded never exceeds the number pending |
| Renderer2D.FitsIff | src/vgl_renderer.c:448 | call k fits the GPU buffer exactly when k is below bufferSize / slot size |
| Renderer2D.UploadLoopUploads | src/vgl_renderer.c:435-474 | the upload loop uploads exactly the calls whose end fits, call i at byte offset i * size with that size, in order |
| Renderer2D.UploadPhaseUploads | src/vgl_renderer.c:418-477 | with a zero buffer id nothing is uploaded; otherwise the fitting calls are |
| Renderer2D.UploadPhaseNoDrawsNoPointers | src/vgl_renderer.c:418-477 | the upload phase issues no draws and no attribute pointers |
| Renderer2D.UploadPhaseRun | src/vgl_renderer.c:418-477 | the upload phase changes only the array-buffer binding |
| Renderer2D.SetupKeeps | src/vgl_renderer.c:480-497 | the setup phase issues no draws and no uploads, and declares the position pointer (2 floats at offset 0) then the colour pointer (4 floats at offset 16), both at the stride it is given |
| Renderer2D.SetupPointers | src/vgl_renderer.c:491-494 | the setup phase declares exactly two attribute pointers: position (2 floats, offset 0) then colour (4 floats, offset 16), both at the given stride |
| Renderer2D.SetupRun | src/vgl_renderer.c:480-487 | setup binds the buffer and program and enables both attributes |
| Renderer2D.TeardownRun | src/vgl_renderer.c:512-515 | teardown disables both attributes and unbinds buffer and program |
| Renderer2D.NeutralPhasesRun | src/vgl_renderer.c:506-523 | draws, the diagnostic and the frame end leave the binding state alone |
| Renderer2D.QuietPhaseKeeps | src/vgl_renderer.c:413-416 | the diagnostic, teardown and frame end hold no draws, uploads or pointers |
| Renderer2D.DrawLoopKeeps | src/vgl_renderer.c:506-509 | the draw loop is exactly the draw schedule |
| Renderer2D.DrawingTraceDraws | src/vgl_renderer.c:408-526 | a drawing repaint issues exactly one strip draw per pending call, in insertion order |
| Renderer2D.DrawingTraceUploads | src/vgl_renderer.c:408-526 | a drawing repaint uploads exactly the fitting calls (none with buffer id 0) |
| Renderer2D.DrawingTraceAttribPointers | src/vgl_renderer.c:408-526 | a drawing repaint declares exactly the two attribute pointers, at the stride its setup uses |
| Renderer2D.DrawingTraceRestores | src/vgl_renderer.c:408-526 | after a drawing repaint both attributes are disabled and buffer and program are unbound, whatever the starting state |
| Renderer2D.DrawingTraceFacts | src/vgl_renderer.c:408-526 | the draw, upload, pointer (at the setup stride) and restore facts of a drawing repaint together |
| Renderer2D.DrawingTraceStartsWithDiagnostic | src/vgl_renderer.c:411-429 | a drawing repaint starts with the "too many calls" diagnostic exactly when there are more than `GL_MAX_VERTEX_ATTRIBS` calls, and otherwise with a buffer bind |
| Renderer2D.Repaint | src/vgl_renderer.c:408-526 | (as written) the batch is reset; with no pending calls only the frame is presented; otherwise one draw per call, the fitting uploads, both attribute pointers at the 32-byte stride, and restored state; the trace starts with the diagnostic exactly when there are more than `GL_MAX_VERTEX_ATTRIBS` calls and always ends by presenting |
| Renderer2D.RepaintCorrected | src/vgl_renderer.c:408-526 | (stride `sizeof(vert)`) the same reset, draws, uploads, binding state and first call as the repaint as written; only the two attribute pointers change, to the 36- or 40-byte vertex size |
| Renderer2D.ValidBatchNeverWarns | src/vgl_renderer.c:413-416 | a batch filled through the slot-counting `Vita_Draw` never triggers the diagnostic |
| Shading2D.LoadShader | src/vgl_renderer.c:146-184 | the shader id is returned only when creation and compilation succeed; a created shader that fails to compile is deleted |
| Shading2D.InitShading | src/vgl_renderer.c:188-282 | status 0 exactly when both shaders load, the program links and the locations exist, else -1; the fragment shader is created only after the vertex shader succeeded |
| Shading2D.SuccessfulShadingFeedsRepaint | src/vgl_renderer.c:188-282 | after a successful set-up the program is nonzero and the locations `repaint` uses come from the driver (desktop) or stay as they were (Vita) |
| GlErrors.ErrorName | src/version2/vgl3d_gl2es.c:216-239 | known codes get their own name and every other code `GL_UNKNOWN. Sorry.` |
| GlErrors.CodeOfName | src/version2/vgl3d_gl2es.c:208-214 | reading a name back gives a known code |
| GlErrors.ErrorNameRoundTrip | src/version2/vgl3d_gl2es.c:208-239 | the name table is a bijection between the six known codes and their names |
| GlErrors.Memcpy | src/vgl_renderer.h:107-127 | a copy writes n bytes from the literal and leaves the rest of the buffer alone |
| GlErrors.GetGlErrorAsWritten | src/vgl_renderer.h:103-128 | for every code the buffer starts with `GL_UNKNOWN. Sorry.` with no terminator; later bytes keep their contents, except two bytes from past the literal for INVALID_OPERATION |
| GlErrors.InvalidOperationOverReads | src/vgl_renderer.h:113-115 | only the INVALID_OPERATION branch copies past its literal's terminator, by three bytes |
| GlErrors.AsWrittenNeverNamesKnownCode | src/vgl_renderer.h:103-128 | the as-written buffer never reads as the name of any known code |
| GlErrors.CString | src/vgl_renderer.h:137 | a C string is the NUL-free prefix before the first NUL, or nothing when there is none |
| GlErrors.CStringOfTerminated | src/vgl_renderer.h:137 | a NUL-free name followed by a NUL reads back as that name |
| GlErrors.GetGlErrorIntended | src/vgl_renderer.h:103-128 | the corrected copy reads back as the code's name and leaves the buffer beyond the terminator alone |
| GlErrors.CheckGlError2D | src/vgl_renderer.h:130-138 | logs exactly when `glGetError` reports an error, with the prefix and a buffer starting `GL_UNKNOWN. Sorry.` |
| GlErrors.CheckGlError3D | src/version2/vgl3d_gl2es.c:241-258 | logs exactly when an error is pending, with the name of the code (or the unknown name) |
| Gl.Present | src/vgl_renderer.c:517-523 | the frame end is a buffer swap, followed by event polling on the desktop only |
| Gl.RunAppend | src/vgl_renderer.c:408-526 | trace-algebra fact used by the `repaint` lemmas, not a model of these lines: replaying a concatenated trace replays the parts in turn |
| Gl.RunCons | src/vgl_renderer.c:408-526 | trace-algebra fact used by the `repaint` lemmas, not a model of these lines: replaying a trace with a leading call steps over that call first |
| Gl.RunFour | src/vgl_renderer.c:480-487 | trace-replay fact used by the `repaint` lemmas: replaying four calls is four steps |
| Gl.RunNeutral | src/vgl_renderer.c:506-509 | trace-replay fact used by the `repaint` lemmas: calls that change no binding leave the state alone |
| Gl.KeepAppend | src/vgl_renderer.c:408-526 | trace-algebra fact used by the `repaint` lemmas, not a model of these lines: filtering a concatenation concatenates the filtered parts |
| Gl.KeepSelects | src/vgl_renderer.c:408-526 | trace-algebra fact used by the `repaint` lemmas, not a model of these lines: every kept call is in the trace and passes the filter |
| Gl.KeepAll | src/vgl_renderer.c:408-526 | trace-algebra fact used by the `repaint` lemmas, not a model of these lines: a trace whose calls all pass is kept whole |
| Gl.KeepNone | src/vgl_renderer.c:408-526 | trace-algebra fact used by the `repaint` lemmas, not a model of these lines: a trace none of whose calls passes keeps nothing |
| Context3D.Create | src/version2/vgl3d_gl2es.c:149-179 | no texture bound, not drawing, continuing, a 960x544 window, a title only on the desktop |
| Context3D.Begin | src/version2/vgl3d_gl2es.c:181-196 | drawing starts; on the desktop `doContinue` becomes "window should not close"; nothing else changes |
| Context3D.End | src/version2/vgl3d_gl2es.c:198-206 | drawing stops and the frame is presented; nothing else changes |
| Context3D.BindTexture | src/version2/vgl3d_gl2es.c:67-70 | the handle is recorded as bound and the texture binding becomes it; nothing else changes |
| Context3D.SetCamera | src/version2/vgl3d_gl2es.c:80-83 | camera position and rotation become the arguments |
| Context3D.QuadAttributeSlices | src/version2/vgl3d_gl2es.c:440-456 | position (3 floats at 0) and texcoord (2 floats at 3) tile the five components |
| Context3D.QuadConstantsAgree | src/version2/vgl3d_gl2es.c:433-456 | 20 packed floats, every quad index names one of the 4 vertices, and the upload size matches the array |
| Context3D.QuadSlicesDisjoint | src/version2/vgl3d_gl2es.c:440-456 | the two quad attribute slices are disjoint and inside the stride |
| Context3D.QuadAttribSetup | src/version2/vgl3d_gl2es.c:626-634 | the quad's attribute pointers use the slice sizes and offsets at a stride of five floats |
| Context3D.DrawQuad | src/version2/vgl3d_gl2es.c:588-667 | a quad is twelve calls with the 6-index triangle draw tenth |
| Context3D.DrawQuadUseTexture | src/version2/vgl3d_gl2es.c:640-641 | the `useTexture` flag is 1 exactly when a texture is bound |
| Context3D.QuadSetupRun | src/version2/vgl3d_gl2es.c:626-634 | the quad set-up enables attributes 0 and 1 |
| Context3D.QuadTeardownRun | src/version2/vgl3d_gl2es.c:664-665 | the quad teardown disables attributes 0 and 1 |
| Context3D.DrawQuadRestoresAttributes | src/version2/vgl3d_gl2es.c:588-667 | a quad leaves the binding state as found except that attributes 0 and 1 end disabled |
| Context3D.DrawQuadDrawsOnce | src/version2/vgl3d_gl2es.c:588-667 | a quad issues exactly one indexed draw, of the six quad indices |
| Context3D.InitShading | src/version2/vgl3d_gl2es.c:391-431 | status 0 exactly when both shaders load and the program links, else -1; both shaders are always created; on success the program is stored |
| Context3D.FragmentLoadedDespiteVertexFailure | src/version2/vgl3d_gl2es.c:401-410 | with a failed vertex shader the 3D context still creates the fragment shader and the 2D renderer does not; both fail |
| MeshDraw.MeshDrawCall | src/vgl3d/mesh/mesh.c:60-111 | indexed exactly when the index count is positive and the pointer non-NULL; the untransformed indexed draw uses zero position and rotation and unit scale |
| MeshDraw.BindAndDraw | src/vgl3d/mesh/mesh.c:60-111 | the mesh texture is bound before the draw call |
| MeshV1.Create | src/vgl3d/mesh/mesh.c:17-38 | NULL buffers, zero counts, both flags clear, handles 0 |
| MeshV1.CheckUploadOrRefresh | src/vgl3d/mesh/mesh.c:40-58 | uploads exactly when the handle is 0 or the mesh changed without free-after-upload; clears the flag, stores the handle, drops the vertices under free-after-upload, changes nothing else |
| MeshV1.Draw | src/vgl3d/mesh/mesh.c:60-111 | a draw is the upload check, then the texture bind and the draw call |
| MeshV1.DrawUploadsOnce | src/vgl3d/mesh/mesh.c:40-111 | a draw uploads exactly when the mesh needs it, and an immediate second draw never does |
| MeshV1.FreeAfterUploadSuppressesRefresh | src/vgl3d/mesh/mesh.c:42-47 | with free-after-upload and a handle, the mesh is never re-uploaded |
| MeshV1.InitWithVertices | src/vgl3d/mesh/mesh.c:124-144 | NULL data gives -1 and no change; otherwise 0 with the vertices and count installed and the changed flag untouched |
| MeshV1.ReinitDoesNotMarkChanged | src/vgl3d/mesh/mesh.c:124-144 | new vertices on an uploaded mesh do not cause a re-upload |
| MeshV1.CubeConstantsAgree | src/vgl3d/mesh/mesh.c:146-188 | 24 cube vertices, 36 indices, every index below 24 |
| MeshV1.InitWithDefaultCube | src/vgl3d/mesh/mesh.c:192-213 | installs the cube's vertices and indices, marks the mesh changed, and changes nothing else |
| MeshV1.DefaultCubeUploadRule | src/vgl3d/mesh/mesh.c:42-47 | a default cube is uploaded unless the mesh has a handle and frees after upload |
| MeshV1.DefaultCubeDrawsIndexed | src/vgl3d/mesh/mesh.c:192-213 | a default cube draws indexed, with its 24 vertices and 36 indices, after binding the texture |
| MeshV1.DestroySelf | src/vgl3d/mesh/mesh.c:113-122 | NULL is a no-op; each non-NULL buffer is freed and its count zeroed |
| MeshV2.Create | src/version2/mesh/mesh.c:10-30 | NULL buffers, zero counts, flag clear, handles 0 |
| MeshV2.CheckUploadOrRefresh | src/version2/mesh/mesh.c:32-41 | uploads exactly when the handle is 0 or the mesh changed; clears the flag, stores the handle, keeps the vertices |
| MeshV2.Draw | src/version2/mesh/mesh.c:43-94 | a draw is the upload check, then the texture bind and the draw call |
| MeshV2.DrawUploadsOnce | src/version2/mesh/mesh.c:32-94 | a draw uploads exactly when needed, a second draw does not, and marking it changed forces one |
| MeshV2.AsV1 | src/version2/mesh/mesh.c:10-30 | the same mesh state in the first revision's record |
| MeshV2.RevisionsDifferOnlyOnFreeAfterUpload | src/version2/mesh/mesh.c:32-41 | the revisions disagree on uploading exactly for a changed, uploaded mesh with free-after-upload |
| MeshV2.InitWithVertices | src/version2/mesh/mesh.c:107-127 | NULL data gives -1 and no change; otherwise 0 with the vertices and count installed |
| MeshV2.InitWithVerticesAgrees | src/version2/mesh/mesh.c:107-127 | both revisions initialise vertices alike |
| MeshV2.CubeVerticesAreCorners | src/version2/mesh/mesh.c:129-168 | 36 cube vertices, a multiple of 3, each a corner of the unit cube |
| MeshV2.CubeTrianglesLieInFaces | src/version2/mesh/mesh.c:129-168 | each of the twelve triangles lies in one face |
| MeshV2.CubeTrianglesShareTexCoords | src/version2/mesh/mesh.c:129-168 | every triangle maps onto the texture as (0,1),(0,0),(1,0) |
| MeshV2.InitWithDefaultCube | src/version2/mesh/mesh.c:171-177 | installs only the 36 vertices; indices and the changed flag are untouched |
| MeshV2.FreshCubeDrawsUnindexed | src/version2/mesh/mesh.c:43-94 | a fresh mesh set to the cube draws its 36 vertices unindexed |
| MeshV2.CubeOnUploadedMeshIsNotUploaded | src/version2/mesh/mesh.c:171-177 | setting an uploaded mesh to the cube does not re-upload it |
| MeshV2.DestroySelf | src/version2/mesh/mesh.c:96-105 | destroys exactly as the first revision does: NULL is a no-op; each non-NULL buffer is freed and its count zeroed; flags and handles are kept |
| MeshV2.DestroyTwiceIsDoubleFree | src/version2/mesh/mesh.c:96-105 | a destroyed mesh holds a freed pointer unless both buffers were NULL |
| Mem.FreeIfNonNull | src/version2/mesh/mesh.c:96-105 | NULL is not freed; any non-NULL pointer ends freed; only a live pointer is a valid free |
| BasicMap.Create | src/basic_hash_map.h:46-56 | (with its missing `return` added) an empty map of the given capacity with zeroed entries and next id 0 |
| BasicMap.CreateAsWritten | src/basic_hash_map.h:46-56 | the map is built but the caller receives whatever the return register held |
| BasicMap.CreateAsWrittenLosesMap | src/basic_hash_map.h:46-56 | the caller gets the built map only if the register happened to hold it; with NULL there it gets NULL |
| BasicMap.Free | src/basic_hash_map.h:58-67 | NULL frees nothing; otherwise the entry array exactly when it is non-NULL, and always the map last; no block is freed twice |
| BasicMap.FreeReleasesWhatCreateAllocated | src/basic_hash_map.h:46-67 | freeing a created map releases its entry array and then its header; a map with a NULL entry array releases only its header |
| BasicMap.PutTargetAsWritten | src/basic_hash_map.h:69-82 | the guard as written reports no space only when tracked + 1 == max |
| BasicMap.PutAsWrittenOverflowsEmptyMap | src/basic_hash_map.h:71-79 | on a capacity-0 map the first put writes entry 0 of an empty array |
| BasicMap.PutTarget | src/basic_hash_map.h:71-79 | the corrected guard only writes entries inside the array |
| BasicMap.PutGuardsAgreeOnNonEmptyMaps | src/basic_hash_map.h:71-74 | on maps of capacity at least 1 the guards agree |
| BasicMap.Put | src/basic_hash_map.h:69-82 | full: nothing changes; otherwise the object goes into entry `tracked` with the next id, and the count advances |
| BasicMap.PutKeepsEntriesAndIdsIncrease | src/basic_hash_map.h:76-79 | earlier entries are kept and ids stay strictly increasing, so distinct |
| BasicMap.PutAll | src/basic_hash_map.h:69-82 | any number of puts stores at most max - 1 entries |
| BasicMap.GetAt | src/basic_hash_map.h:84-93 | entry i exactly when the map is non-NULL and i is in use |
| BasicMap.GetById | src/basic_hash_map.h:95-108 | the first in-use entry with the id, or nothing when the map is NULL, empty or lacks it |
| BasicMap.PutThenGetById | src/basic_hash_map.h:69-108 | the id a put hands out is found again at the entry it returned, holding the object |
| GlfwInput.QueriesExclusive | src/version2/input/tesla_input_glfw.c:122-135 | down (PRESS), held (REPEAT) and up (RELEASE) exclude one another and one holds for every action; the mouse queries are the same |
| Keyboard.Create | src/version2/input/tesla_input_glfw.c:25-48 | every key RELEASE in both arrays; the window field is whatever was left there |
| Keyboard.InitBackend | src/version2/input/tesla_input_glfw.c:75-87 | 0 and the window recorded when one is given, -1 and no change otherwise |
| Keyboard.CallbackTargetAsWritten | src/version2/input/tesla_input_glfw.c:53-73 | with a registered keyboard the callback writes entry `key`, whatever the code |
| Keyboard.CallbackAsWrittenWritesOutside | src/version2/input/tesla_input_glfw.c:53-73 | codes -1 and 348 write outside the 348-entry array |
| Keyboard.KeyCallback | src/version2/input/tesla_input_glfw.c:53-73 | (bounds-checked) the net effect is keys[key] := action; unregistered or out-of-range keys change nothing |
| Keyboard.Deliver | src/version2/input/tesla_input_glfw.c:53-73 | delivering events changes only the current keys, and nothing without a registered keyboard |
| Keyboard.DeliverLastWins | src/version2/input/tesla_input_glfw.c:53-73 | a key keeps its state unless an event names it, and takes the last event's action |
| Keyboard.Poll | src/version2/input/tesla_input_glfw.c:94-120 | no window: nothing happens; otherwise the keyboard is registered, events are delivered, a key PRESS in both arrays becomes REPEAT, the rest keep their state, and the last array becomes a copy |
| Keyboard.FirstPollDropsEvents | src/version2/input/tesla_input_glfw.c:94-120 | events of the poll that registers the keyboard are lost |
| Keyboard.DownLastsOnePoll | src/version2/input/tesla_input_glfw.c:94-120 | a key reads down for one poll and then held if no release arrives |
| Keyboard.PressedKeyIsHeldAfterTwoPolls | src/version2/input/tesla_input_glfw.c:101-116 | a key pressed and not released reads held after two polls |
| Keyboard.DestroySelf | src/version2/input/tesla_input_glfw.c:89-92 | the private data is freed when non-NULL |
| Mouse.Create | src/version2/input/tesla_input_mouse_glfw.c:92-127 | no window, all buttons RELEASE in both arrays, and 8 buttons |
| Mouse.InitBackend | src/version2/input/tesla_input_mouse_glfw.c:33-51 | always 0 and registered; the window is recorded only when given |
| Mouse.ButtonCallback | src/version2/input/tesla_input_mouse_glfw.c:18-28 | the button takes the action; nothing else changes |
| Mouse.Deliver | src/version2/input/tesla_input_mouse_glfw.c:18-28 | delivering events changes only the current buttons |
| Mouse.PollAsWritten | src/version2/input/tesla_input_mouse_glfw.c:59-78 | each button PRESS at the last poll becomes REPEAT whatever its current state; the last array becomes a copy |
| Mouse.ReleasedButtonSticksHeld | src/version2/input/tesla_input_mouse_glfw.c:66-75 | a button pressed in one frame and released in the next reads held for every later poll |
| Mouse.QuietPollsAsWritten | src/version2/input/tesla_input_mouse_glfw.c:59-78 | polls without events keep the last array a copy of the current one |
| Mouse.QuietPollsKeepHeld | src/version2/input/tesla_input_mouse_glfw.c:66-75 | a held button stays held across any number of quiet polls |
| Mouse.Poll | src/version2/input/tesla_input_mouse_glfw.c:59-78 | (corrected) only a button PRESS in both arrays becomes REPEAT |
| Mouse.PollReflectsLatestEvent | src/version2/input/tesla_input_mouse_glfw.c:59-78 | with the corrected poll a released button reads up, a fresh press reads down, and a press not released reads held one poll later |
| Mouse.PollsAgreeUnlessReleasedAfterPress | src/version2/input/tesla_input_mouse_glfw.c:66-75 | the two polls differ exactly on a button released since a poll that saw it pressed |
| Mouse.DestroySelf | src/version2/input/tesla_input_mouse_glfw.c:53-57 | no-op for a NULL mouse or NULL private data; otherwise the private data is freed |
| Gamepad.Bit | src/vgl3d/input/tesla_input.h:31-80 | a shift of 1 below 16 is a single nonzero bit |
| Gamepad.MasksAreDistinctBits | src/vgl3d/input/tesla_input.h:31-80 | the sixteen button values are distinct single bits within the low 16 bits |
| Gamepad.BitfieldLayoutAgrees | src/vgl3d/input/tesla_input_vita.c:4-27 | the i-th one-bit field of the private struct is the bit of the matching enumerator |
| Gamepad.Create | src/vgl3d/input/tesla_input_vita.c:37-51 | no button is down, and the up/held queries are not provided |
| Gamepad.Poll | src/vgl3d/input/tesla_input_vita.c:53-64 | the bitfield becomes the sampled word |
| Gamepad.IsButtonDownValue | src/vgl3d/input/tesla_input_vita.c:66-68 | nonzero exactly when a masked bit is set, and no bits outside the mask |
| Gamepad.SingleButtonReadsItsBit | src/vgl3d/input/tesla_input_vita.c:53-68 | after a poll a single button reads as its own mask when sampled, 0 otherwise |
| Gamepad.SingleBitMask | src/vgl3d/input/tesla_input_vita.c:67 | masking by a single set bit gives that bit |
| Gamepad.InitBackend | src/vgl3d/input/tesla_input_vita.c:70-75 | logs the initialisation message, sets the controller to analog sampling whatever its previous mode, and returns 0 |
| Gamepad.DestroySelf | src/vgl3d/input/tesla_input_vita.c:81-85 | the "Freeing private data...." message is always logged; the private data is freed when non-NULL |
| InputCommon.Create | src/vgl3d/input/tesla_input.h:232-263 | records the type; gamepad, keyboard and mouse build their arm with their own constructor; other types log "not supported" and build none |
| InputCommon.UnsupportedTypesStillReturn | src/vgl3d/input/tesla_input.h:249-262 | touch and unknown types, and only those, return an unbuilt input |
| InputCommon.CreatedInputIsIdle | src/vgl3d/input/tesla_input.h:232-263 | whichever device is built reads idle through its own queries: no key or mouse button down or held, no gamepad button down |

## Left out

- GL, vitaGL and GLFW effects are events in a trace, not effects:
  - window and context creation, the GLEW/vitaGL initialisation (`VGL3D_InitBackend`, `initGL`, `deInitGL`);
  - the GenBuffers/BindBuffer/BufferData calls of `initGLAdv`;
  - buffer swaps and `glfwGetError`.
- The `CHECK_GL_ERROR` calls interleaved through `repaint`, the shader loaders and `VGL3D_DrawQuad` are not in the modelled traces. `glGetError` is a parameter of `GlErrors.CheckGlError2D`/`CheckGlError3D` instead.
- Matrix numerics are symbolic compositions: translation, rotation, scaling, look-at, perspective and the orthographic `cpu_mvp` are floating point and trigonometry.
- The log and diagnostic texts (`printf`, `context->Log`) are dropped. Seven are kept: the `[%s] OPENGL ERROR: %s` line of both `CHECK_GL_ERROR` macros (2D and 3D, as `GlErrors.ErrorLog`, carrying the prefix and the message), the "not supported" message of `CommonInput_Create` (its `%d` is not rendered), the messages of `TInput_InitBackend_Vita` and `TInput_DestroySelf_Vita`, the "too many calls" diagnostic of `repaint` (as an event carrying the count), and the "offset + sizeCopy > GL_BUFFERSIZE" message of `repaint`'s upload loop (as an event carrying the offset, the size and the buffer size).
- The base `Log` function that `CommonInput_Create` installs is a function pointer and is not modelled.
- Shader file reading (`_VGL3D_ReadShaderFromFile`), shader source text, texture loading and image decoding are I/O.
- `_VGL3D_LoadShader` is modelled by `Shading2D.LoadShader`, because its create/compile failure logic is the same.
- glTF loading (`TestMesh_private_ReadMeshAt`, `TestMesh_ReadGLTFAtPath`, the `*_tostr` macros) is a foreign library.
- `TestMesh_CreateHeap` is only a heap copy of `TestMesh_Create`.
- src/version2/mesh/mesh.h declares a mesh struct that disagrees with mesh.c. The model follows mesh.c.
- `CommonInput_CreateHeap` is only a heap copy of `CommonInput_Create`.
- `TInput_DestroyBackend_Vita` and the mouse-move callback have empty bodies.
- The gamepad's up/held queries are NULL function pointers, so they appear only as the `providesUpAndHeld` flag.
- Gamepad.IsButtonDownValue: the C function returns the masked 32 bits reinterpreted as an `int`. The model keeps the `bv32` value and states only which bits it holds.
- The keyboard and mouse callbacks reach their object through one global. Several keyboard or mouse objects sharing that global are not modelled. A poll registers its own object.
- Mouse.ButtonCallback: requires a registered mouse and a button below 8. The C callback dereferences the global without a NULL check, and GLFW reports only those buttons.
- MeshV1.CheckUploadOrRefresh, MeshV1.InitWithVertices and the other mesh operations require `NoDangling`. Reading or freeing a freed pointer is undefined behaviour in C.
- The GPU handle `CreateVBOWithVertexData` returns is an input parameter.
- GlfwInput.Down, GlfwInput.Held and GlfwInput.Up: the C queries (`IsKeyDown`/`IsKeyHeld`/`IsKeyUp` and their mouse counterparts) index `keys` and `mouseButtons` without a range check. A key of 348 or more, or a button of 8 or more, reads past the array, usually into the `last` array that follows it. A negative key reads before the array. The model answers false for every index outside the array: the indices are `nat`, and the memory past the array is not modelled.
- Keyboard.Create: the window field is an input (`leftover`), because the source never initialises it.
- Floating-point rounding of vertex coordinates: coordinates are reals and are only added.
- Renderer2D.Repaint: more than `MAX_VERTICES` pending calls can only come from the as-written `Vita_Draw`, which writes them past the 1024 allocated slots. `Batch2D.DrawAsWritten` stops at that first write past the storage. `Repaint` therefore takes a batch whose storage holds every pending call. With such a batch the diagnostic is stated, but the overrun memory itself is not modelled.
- BasicMap.Create: the entry array of a created map is never NULL, so a failed `malloc` is not modelled (the C `memset` would write through NULL). `BasicMap.Free` still handles a NULL entry array, as `free_basic_map` does.
- Gamepad.InitBackend: only the sampling mode of the controller is modelled. The analog stick values it enables are not read anywhere in the core.
- The Vita shader-compiler presence check (`userHasLibshaccg_private`) is file and dialog I/O.

## Findings

| source | as written | input that shows it | evidently intended | confidence | as-written member | corrected member |
|---|---|---|---|---|---|---|
| src/vgl_renderer.c:104 | `Vita_Draw` drops a quad only when `cursor + 1` exceeds `_vgl_pending_total_size`, a byte count | 1025 quads: the 1025th is written to slot 1024, past the 1024-slot storage | drop once all `MAX_VERTICES` slots are used | not executed | Batch2D.AsWrittenGuardOverflows | Batch2D.DrawAllKeepsPrefix |
| src/vgl_renderer.c:410 | the attribute stride is eight floats (32 bytes) | vertex 1's position is read at byte 32, the `obj_ptr` of vertex 0 (each vertex is 36 or 40 bytes) | stride `sizeof(vert)` | not executed | Renderer2D.Repaint, Renderer2D.AsWrittenStrideReadsPointer | Renderer2D.RepaintCorrected, Renderer2D.CorrectedStrideReadsOwnVertex |
| src/vgl_renderer.h:127 | the copy of `GL_UNKNOWN. Sorry.` runs after the switch for every code | code `GL_INVALID_ENUM`: the buffer reads `GL_UNKNOWN. Sorry.` | the unknown name only for unknown codes, with a terminator | not executed | GlErrors.AsWrittenNeverNamesKnownCode | GlErrors.GetGlErrorIntended |
| src/vgl_renderer.h:114 | the INVALID_OPERATION case copies `strlen(GLINVALIDOP)` (20) bytes from the 16-character `GL_INVALID_VALUE` literal | code `GL_INVALID_OPERATION`: 3 bytes past the literal's terminator are read | copy `GL_INVALID_OPERATION` | not executed | GlErrors.InvalidOperationOverReads | GlErrors.GetGlErrorIntended |
| src/basic_hash_map.h:46-56 | `create_basic_map` has no `return` statement | any call: the caller receives an unspecified value (NULL if the register held 0) | return the built map | not executed | BasicMap.CreateAsWrittenLosesMap | BasicMap.Create |
| src/basic_hash_map.h:71-74 | `put_basic_map` reports "no space" only when tracked + 1 == max | capacity 0: the first put writes entry 0 of an empty array | no space once tracked + 1 >= max | not executed | BasicMap.PutAsWrittenOverflowsEmptyMap | BasicMap.Put |
| src/version2/input/tesla_input_mouse_glfw.c:66-75 | the poll turns a button REPEAT whenever its last state was PRESS, whatever its current state | press a button, poll, release it, poll: it reads held, and stays held | only a button PRESS in both frames becomes REPEAT, as the keyboard does | not executed | Mouse.ReleasedButtonSticksHeld | Mouse.PollReflectsLatestEvent |
| src/version2/input/tesla_input_glfw.c:53-73 | the key callback writes `keys[key]` without a range check | `GLFW_KEY_UNKNOWN` (-1) or the Menu key (348) write outside the 348-entry array | ignore codes outside [0, 348) | not executed | Keyboard.CallbackAsWrittenWritesOutside | Keyboard.KeyCallback |

=== FILE: basic_map.dfy ===
/** The basic id map of src/basic_hash_map.h: a bounded, append-only array of
    (id, object) entries with ids handed out in increasing order, positional
    lookup and a linear search by id. Objects are opaque pointer values. */
module BasicMap {
  import opened Mem

  /** Values of the C `uint32_t` used for ids and for the index argument. */
  const U32Range: nat := 0x1_0000_0000
  type U32 = x: nat | x < U32Range

  /** `bm_key_t`: an entry; `obj` is the stored pointer value (0 is NULL). */
  datatype Key = Key(id: U32, obj: nat)

  const ZeroKey: Key := Key(0, 0)

  /** `bm_map_t`: the entry array, how many entries are in use, its capacity
      and the next id to hand out. `entriesNull` says whether the entry array
      pointer `map` is NULL, as `malloc` may leave it. */
  datatype Map = Map(slots: seq<Key>, tracked: nat, maxElements: nat, lastId: U32, entriesNull: bool)

  /** The state every map reachable through the corrected operations is in:
      the array has `maxElements` entries, at most `maxElements - 1` of them
      are in use, entry i carries id i (mod 2^32), and unused entries are
      still zero. A NULL entry array only ever has room for nothing. */
  ghost predicate Valid(m: Map) {
    && |m.slots| == m.maxElements
    && (m.entriesNull ==> m.maxElements == 0)
    && (if m.maxElements == 0 then m.tracked == 0 else m.tracked <= m.maxElements - 1)
    && m.lastId == m.tracked % U32Range
    && (forall i :: 0 <= i < m.tracked ==> m.slots[i].id == i % U32Range)
    && (forall i :: m.tracked <= i < |m.slots| ==> m.slots[i] == ZeroKey)
  }

  /** `create_basic_map` with the `return` it is evidently meant to end with:
      an empty map of the requested capacity with zeroed entries, its entry
      array allocated. */
  function Create(maxElems: nat): (m: Map)
    ensures Valid(m)
    ensures m.tracked == 0 && m.lastId == 0 && m.maxElements == maxElems && !m.entriesNull
    ensures |m.slots| == maxElems && forall i :: 0 <= i < |m.slots| ==> m.slots[i] == ZeroKey
  {
    Map(seq(maxElems, _ => ZeroKey), 0, maxElems, 0, false)
  }

  /** What the caller of `create_basic_map` as written receives, and the map
      it built: the function has no `return` statement, so the value left in
      the return register (`leftover`) is what comes back. */
  datatype Created = Created(returned: Option<Map>, built: Map)

  function CreateAsWritten(maxElems: nat, leftover: Option<Map>): (c: Created)
    ensures c.built == Create(maxElems)
    ensures c.returned == leftover
  {
    Created(leftover, Create(maxElems))
  }

  /** Finding: the map `create_basic_map` builds is lost unless the return
      register happens to hold it; with NULL there, the caller gets NULL. */
  lemma CreateAsWrittenLosesMap(maxElems: nat)
    ensures CreateAsWritten(maxElems, None).returned != Some(CreateAsWritten(maxElems, None).built)
    ensures forall leftover: Option<Map> ::
      CreateAsWritten(maxElems, leftover).returned == Some(Create(maxElems)) <==> leftover == Some(Create(maxElems))
  {
  }

  /** The blocks `free_basic_map` releases, in order. */
  datatype Block = EntryArray | MapHeader

  /** `free_basic_map`: nothing for NULL; otherwise the entry array when it is
      not NULL, then the map itself. */
  function Free(m: Option<Map>): (freed: seq<Block>)
    ensures m.None? <==> freed == []
    ensures m.Some? ==> (EntryArray in freed <==> !m.value.entriesNull) && freed[|freed| - 1] == MapHeader
    ensures forall i :: 0 <= i < |freed| - 1 ==> freed[i] != MapHeader
    ensures forall i, j :: 0 <= i < j < |freed| ==> freed[i] != freed[j]
  {
    if m.None? then []
    else if m.value.entriesNull then [MapHeader]
    else [EntryArray, MapHeader]
  }

  /** Every block a created map owns is released exactly once by freeing it,
      the entry array before the header; and the header is released even when
      the entry array is NULL. */
  lemma FreeReleasesWhatCreateAllocated(maxElems: nat, m: Map)
    ensures Free(Some(Create(maxElems))) == [EntryArray, MapHeader]
    ensures m.entriesNull ==> Free(Some(m)) == [MapHeader]
  {
  }

  /** The entry `put_basic_map` as written writes, or None when it reports
      "no space": the guard only tests `tracked + 1 == max`. */
  function PutTargetAsWritten(m: Map): (slot: Option<nat>)
    ensures slot.None? <==> m.tracked + 1 == m.maxElements
    ensures slot.Some? ==> slot.value == m.tracked
  {
    if m.tracked + 1 == m.maxElements then None else Some(m.tracked)
  }

  /** Finding: on a map created with capacity 0 the guard never fires, and
      the first put writes entry 0 of an empty array. */
  lemma PutAsWrittenOverflowsEmptyMap()
    ensures PutTargetAsWritten(Create(0)).Some?
    ensures PutTargetAsWritten(Create(0)).value >= |Create(0).slots|
  {
  }

  /** The guard `put_basic_map` evidently intends: no space once only one free
      entry is left, which also covers a capacity of 0. */
  function PutTarget(m: Map): (slot: Option<nat>)
    ensures Valid(m) && slot.Some? ==> slot.value < |m.slots|
    ensures slot.Some? ==> slot.value == m.tracked
  {
    if m.tracked + 1 >= m.maxElements then None else Some(m.tracked)
  }

  /** On every map of capacity at least 1 the two guards agree. */
  lemma PutGuardsAgreeOnNonEmptyMaps(m: Map)
    requires Valid(m) && m.maxElements >= 1
    ensures PutTarget(m) == PutTargetAsWritten(m)
  {
  }

  datatype PutResult = PutResult(map_: Map, slot: Option<nat>)

  /** `put_basic_map` with the corrected guard: store `obj` in the next entry
      with the next id and return that entry, or return None and change
      nothing when the map is full. */
  function Put(m: Map, obj: nat): (r: PutResult)
    requires Valid(m)
    ensures Valid(r.map_)
    ensures r.slot.None? <==> m.tracked + 1 >= m.maxElements
    ensures r.slot.None? ==> r.map_ == m
    ensures r.slot.Some? ==>
      && r.slot.value == m.tracked
      && r.map_.tracked == m.tracked + 1
      && r.map_.slots == m.slots[m.tracked := Key(m.lastId, obj)]
      && r.map_.maxElements == m.maxElements
      && r.map_.entriesNull == m.entriesNull
  {
    match PutTarget(m)
    case None => PutResult(m, None)
    case Some(k) =>
      var stored := m.(slots := m.slots[k := Key(m.lastId, obj)], tracked := m.tracked + 1,
                       lastId := (m.lastId + 1) % U32Range);
      PutResult(stored, Some(k))
  }

  /** A put keeps every earlier entry, and ids stay strictly increasing (so
      distinct) while fewer than 2^32 entries are stored. */
  lemma PutKeepsEntriesAndIdsIncrease(m: Map, obj: nat)
    requires Valid(m) && m.tracked + 1 < U32Range
    ensures var r := Put(m, obj);
      && (forall i :: 0 <= i < m.tracked ==> r.map_.slots[i] == m.slots[i])
      && (forall i, j :: 0 <= i < j < r.map_.tracked ==> r.map_.slots[i].id < r.map_.slots[j].id)
  {
    var r := Put(m, obj);
    forall i, j | 0 <= i < j < r.map_.tracked
      ensures r.map_.slots[i].id < r.map_.slots[j].id
    {
      assert r.map_.slots[i].id == i && r.map_.slots[j].id == j;
    }
  }

  /** A map of capacity n stores at most n - 1 entries, however many puts. */
  function PutAll(m: Map, objs: seq<nat>): (r: Map)
    requires Valid(m)
    ensures Valid(r)
    ensures r.maxElements == m.maxElements
    ensures r.tracked == Min(m.tracked + |objs|, if m.maxElements == 0 then 0 else m.maxElements - 1)
    decreases |objs|
  {
    if objs == [] then m else PutAll(Put(m, objs[0]).map_, objs[1..])
  }

  /** `get_at_basic_map`: entry `index` when the map is non-NULL and the index
      is in use, otherwise None. */
  function GetAt(m: Option<Map>, index: U32): (slot: Option<nat>)
    ensures slot.Some? <==> m.Some? && index < m.value.tracked
    ensures slot.Some? ==> slot.value == index
  {
    if m.Some? && index < m.value.tracked then Some(index) else None
  }

  /** `get_by_id_basic_map`: the first entry in use whose id is `id`, or None
      when the map is NULL, empty or holds no such id. */
  method GetById(m: Option<Map>, id: U32) returns (slot: Option<nat>)
    requires m.Some? ==> m.value.tracked <= |m.value.slots|
    ensures slot.None? <==> (m.None? || forall i :: 0 <= i < m.value.tracked ==> m.value.slots[i].id != id)
    ensures slot.Some? ==>
      && slot.value < m.value.tracked
      && m.value.slots[slot.value].id == id
      && forall j :: 0 <= j < slot.value ==> m.value.slots[j].id != id
  {
    slot := None;
    if m.Some? && m.value.tracked > 0 {
      var map_ := m.value;
      var i := 0;
      while i < map_.tracked
        invariant 0 <= i <= map_.tracked
        invariant forall j :: 0 <= j < i ==> map_.slots[j].id != id
      {
        if map_.slots[i].id == id {
          return Some(i);
        }
        i := i + 1;
      }
    }
  }

  /** Lookup finds what a put stored: the entry a put returns is where the
      id it handed out is found again, with the object put there. */
  method PutThenGetById(m: Map, obj: nat) returns (found: Option<nat>)
    requires Valid(m) && m.tracked + 1 < U32Range && m.tracked + 1 < m.maxElements
    ensures found == Put(m, obj).slot
    ensures found.Some? && Put(m, obj).map_.slots[found.value] == Key(m.lastId, obj)
  {
    var r := Put(m, obj);
    PutKeepsEntriesAndIdsIncrease(m, obj);
    found := GetById(Some(r.map_), m.lastId);
    assert r.map_.slots[m.tracked].id == m.lastId;
  }
}

=== FILE: batch2d.dfy ===
/** The 2D batch engine of src/vgl_renderer.c: a fixed array of pending draw
    calls, a write cursor, and a draw-call counter. */
module Batch2D {
  import opened Mem
  import opened VglTypes
  import Gl

  /** `_vgl_pending_calls` (the backing storage), `_vgl_pending_offset` (the
      cursor), `_DrawCalls` (the counter) and `_vgl_pending_total_size`. */
  datatype Batch = Batch(slots: seq<DrawCall>, cursor: nat, drawCalls: nat, totalSize: nat)

  /** The state the renderer keeps between calls: storage for exactly
      `MaxVertices` well-formed draw calls, and cursor and counter in step. */
  ghost predicate Valid(b: Batch) {
    && |b.slots| == MaxVertices
    && (forall i :: 0 <= i < |b.slots| ==> b.slots[i].Valid())
    && b.cursor == b.drawCalls
    && b.cursor <= MaxVertices
  }

  /** A quad request: destination rectangle of `Vita_Draw`. */
  datatype Quad = Quad(x: real, y: real, w: real, h: real)

  /** The batch as `initGLAdv` leaves it: the byte size recorded, storage
      allocated (its contents are whatever `malloc` returned), and the static
      cursor and counter still 0. */
  function Init(p: Platform, storage: seq<DrawCall>): (b: Batch)
    requires |storage| == MaxVertices
    requires forall i :: 0 <= i < |storage| ==> storage[i].Valid()
    ensures Valid(b) && b.cursor == 0 && b.drawCalls == 0
    ensures b.slots == storage
    ensures b.totalSize == MaxVertices * DrawCallBytes(p)
  {
    Batch(storage, 0, 0, PendingTotalSize(p))
  }

  /** Corner k of a quad in triangle-strip order: (x,y), (x,y+h), (x+w,y), (x+w,y+h). */
  function StripCorner(k: nat, x: real, y: real, w: real, h: real): (real, real)
    requires k < VerticesPerPrim
  {
    (x + (if k >= 2 then w else 0.0), y + (if k % 2 == 1 then h else 0.0))
  }

  /** The fixed per-corner colour (r, g, b, a) the writer stores. */
  function CornerColour(k: nat): (real, real, real, real)
    requires k < VerticesPerPrim
  {
    if k == 0 then (1.0, 0.5, 0.0, 1.0)
    else if k == 1 then (1.0, 0.0, 0.5, 1.0)
    else if k == 2 then (0.0, 1.0, 0.0, 1.0)
    else (1.0, 0.0, 1.0, 1.0)
  }

  function SetCorner(v: Vert, pos: (real, real), colour: (real, real, real, real)): Vert {
    v.(x := pos.0, y := pos.1, r := colour.0, g := colour.1, b := colour.2, a := colour.3)
  }

  /** `Vita_WriteVertices`: a NULL call is ignored; otherwise the four corner
      positions and fixed colours are written. The source and colour arguments
      are accepted and not used; texture coordinates and `obj_ptr` keep their
      previous contents. */
  function WriteVertices(call: Option<DrawCall>, x: real, y: real, w: real, h: real,
                         srcX: real, srcX2: real, srcY: real, srcY2: real,
                         r: real, g: real, b: real, a: real): (out: Option<DrawCall>)
    requires call.Some? ==> call.value.Valid()
    ensures out.Some? <==> call.Some?
    ensures out.Some? ==> out.value.Valid()
    ensures out.Some? ==> forall k :: 0 <= k < VerticesPerPrim ==>
      && (out.value.verts[k].x, out.value.verts[k].y) == StripCorner(k, x, y, w, h)
      && (out.value.verts[k].r, out.value.verts[k].g, out.value.verts[k].b, out.value.verts[k].a) == CornerColour(k)
      && out.value.verts[k].s == call.value.verts[k].s
      && out.value.verts[k].v == call.value.verts[k].v
      && out.value.verts[k].objPtr == call.value.verts[k].objPtr
  {
    match call
    case None => None
    case Some(dc) =>
      var vs := dc.verts;
      Some(DrawCall([
        SetCorner(vs[0], (x, y), (1.0, 0.5, 0.0, 1.0)),
        SetCorner(vs[1], (x, y + h), (1.0, 0.0, 0.5, 1.0)),
        SetCorner(vs[2], (x + w, y), (0.0, 1.0, 0.0, 1.0)),
        SetCorner(vs[3], (x + w, y + h), (1.0, 0.0, 1.0, 1.0))]))
  }

  /** The colour arguments make no difference to what is written. */
  lemma WriteVerticesIgnoresColour(call: Option<DrawCall>, x: real, y: real, w: real, h: real,
                                   srcX: real, srcX2: real, srcY: real, srcY2: real,
                                   r: real, g: real, b: real, a: real,
                                   r': real, g': real, b': real, a': real)
    requires call.Some? ==> call.value.Valid()
    ensures WriteVertices(call, x, y, w, h, srcX, srcX2, srcY, srcY2, r, g, b, a)
         == WriteVertices(call, x, y, w, h, srcX, srcX2, srcY, srcY2, r', g', b', a')
  {
  }

  /** What `Vita_Draw` writes into a slot for a quad. */
  function WriteQuad(dc: DrawCall, q: Quad): (out: DrawCall)
    requires dc.Valid()
    ensures out.Valid()
  {
    WriteVertices(Some(dc), q.x, q.y, q.w, q.h, 1.0, 1.0, 1.0, 1.0, 1.0, 1.0, 1.0, 1.0).value
  }

  datatype DrawResult = DrawResult(batch: Batch, dropped: bool)

  /** `Vita_Draw` with the capacity guard counting slots (`cursor + 1 > MaxVertices`).
      A full batch drops the quad, printing a diagnostic; otherwise the quad is
      written at the cursor and cursor and counter each advance by one. */
  function Draw(b: Batch, q: Quad): (r: DrawResult)
    requires Valid(b)
    ensures Valid(r.batch)
    ensures r.dropped <==> b.cursor == MaxVertices
    ensures r.dropped ==> r.batch == b
    ensures !r.dropped ==>
      && r.batch.cursor == b.cursor + 1
      && r.batch.drawCalls == b.drawCalls + 1
      && r.batch.totalSize == b.totalSize
      && r.batch.slots[b.cursor] == WriteQuad(b.slots[b.cursor], q)
      && (forall i :: 0 <= i < |b.slots| && i != b.cursor ==> r.batch.slots[i] == b.slots[i])
  {
    if b.cursor + 1 > MaxVertices then DrawResult(b, true)
    else
      var written := WriteQuad(b.slots[b.cursor], q);
      DrawResult(b.(slots := b.slots[b.cursor := written],
                    cursor := b.cursor + 1, drawCalls := b.drawCalls + 1), false)
  }

  /** What `Vita_Draw` as written can do: drop the quad, store it, or write a
      slot past the end of the storage. */
  datatype AsWrittenOutcome = Dropped | Stored(batch: Batch) | WritesPastStorage(slot: nat)

  /** `Vita_Draw` as written: the guard compares the cursor with
      `_vgl_pending_total_size`, a byte count, so it lets the cursor run past the
      `MaxVertices` slots of storage. */
  function DrawAsWritten(b: Batch, q: Quad): (r: AsWrittenOutcome)
    requires |b.slots| == MaxVertices
    requires forall i :: 0 <= i < |b.slots| ==> b.slots[i].Valid()
    ensures r.Dropped? <==> b.cursor + 1 > b.totalSize
    ensures r.WritesPastStorage? ==> r.slot == b.cursor && r.slot >= |b.slots|
    ensures r.Stored? ==> r.batch.cursor == b.cursor + 1 && r.batch.drawCalls == b.drawCalls + 1
  {
    if b.cursor + 1 > b.totalSize then Dropped
    else if b.cursor >= |b.slots| then WritesPastStorage(b.cursor)
    else Stored(b.(slots := b.slots[b.cursor := WriteQuad(b.slots[b.cursor], q)],
                   cursor := b.cursor + 1, drawCalls := b.drawCalls + 1))
  }

  /** Below the slot capacity the as-written guard and the slot guard agree. */
  lemma DrawAsWrittenAgreesBelowCapacity(b: Batch, q: Quad)
    requires Valid(b) && b.totalSize >= MaxVertices && b.cursor < MaxVertices
    ensures DrawAsWritten(b, q) == Stored(Draw(b, q).batch)
  {
  }

  /** Successive `Vita_Draw` calls, one per quad. */
  function DrawAll(b: Batch, qs: seq<Quad>): (r: Batch)
    requires Valid(b)
    ensures Valid(r)
    decreases |qs|
  {
    if |qs| == 0 then b else DrawAll(Draw(b, qs[0]).batch, qs[1..])
  }

  /** Capacity: drawing a sequence of quads keeps the first quads that fit,
      in order, each in its own slot; the quads that do not fit are dropped and
      no other slot changes. */
  lemma {:induction false} DrawAllKeepsPrefix(b: Batch, qs: seq<Quad>)
    requires Valid(b)
    ensures DrawAll(b, qs).cursor == Min(b.cursor + |qs|, MaxVertices)
    ensures DrawAll(b, qs).totalSize == b.totalSize
    ensures forall i :: b.cursor <= i < DrawAll(b, qs).cursor ==>
      DrawAll(b, qs).slots[i] == WriteQuad(b.slots[i], qs[i - b.cursor])
    ensures forall i :: 0 <= i < MaxVertices && !(b.cursor <= i < DrawAll(b, qs).cursor) ==>
      DrawAll(b, qs).slots[i] == b.slots[i]
    decreases |qs|
  {
    if |qs| > 0 {
      var d := Draw(b, qs[0]);
      DrawAllKeepsPrefix(d.batch, qs[1..]);
    }
  }

  /** From an empty batch: exactly min(N, MaxVertices) quads are retained, quad i in slot i. */
  lemma DrawAllFromEmpty(b: Batch, qs: seq<Quad>)
    requires Valid(b) && b.cursor == 0
    ensures DrawAll(b, qs).drawCalls == Min(|qs|, MaxVertices)
    ensures forall i :: 0 <= i < Min(|qs|, MaxVertices) ==>
      DrawAll(b, qs).slots[i] == WriteQuad(b.slots[i], qs[i])
  {
    DrawAllKeepsPrefix(b, qs);
  }

  /** `Vita_GetTotalCalls`: the number of quads accepted since the last reset,
      which is also the cursor. */
  function TotalCalls(b: Batch): (n: nat)
    requires Valid(b)
    ensures n == b.cursor && n <= MaxVertices
  {
    b.drawCalls
  }

  /** `Vita_ResetTotalCalls`: counter and cursor back to 0; storage is kept. */
  function ResetTotalCalls(b: Batch): (r: Batch)
    ensures r.cursor == 0 && r.drawCalls == 0
    ensures r.slots == b.slots && r.totalSize == b.totalSize
    ensures Valid(b) ==> Valid(r)
  {
    b.(drawCalls := 0, cursor := 0)
  }

  /** Resetting twice is the same as resetting once. */
  lemma ResetIdempotent(b: Batch)
    ensures ResetTotalCalls(ResetTotalCalls(b)) == ResetTotalCalls(b)
  {
  }

  /** After a reset the next quad goes to slot 0. */
  lemma DrawAfterResetWritesSlotZero(b: Batch, q: Quad)
    requires Valid(b)
    ensures !Draw(ResetTotalCalls(b), q).dropped
    ensures Draw(ResetTotalCalls(b), q).batch.slots[0] == WriteQuad(b.slots[0], q)
    ensures Draw(ResetTotalCalls(b), q).batch.cursor == 1
  {
  }

  /** `clear`: clear the colour buffer, then reset the batch. */
  function Clear(b: Batch): (r: (Batch, seq<Gl.Call>))
    ensures r.0 == ResetTotalCalls(b)
    ensures r.1 == [Gl.ClearColorBuffer]
  {
    (ResetTotalCalls(b), [Gl.ClearColorBuffer])
  }

  /** A blank draw call, used to exhibit a concrete batch. */
  function BlankCall(): (dc: DrawCall)
    ensures dc.Valid()
  {
    var v := Vert(0.0, 0.0, 0.0, 0.0, 0.0, 0.0, 0.0, 0.0, 0);
    DrawCall([v, v, v, v])
  }

  /** Finding: after `MaxVertices` accepted quads, `Vita_Draw` as written does
      not drop the next one; it writes slot `MaxVertices`, one past the storage. */
  lemma AsWrittenGuardOverflows(p: Platform)
    ensures var storage := seq(MaxVertices, _ => BlankCall());
            var full := DrawAll(Init(p, storage), seq(MaxVertices, _ => Quad(0.0, 0.0, 16.0, 16.0)));
            full.cursor == MaxVertices
            && DrawAsWritten(full, Quad(0.0, 0.0, 16.0, 16.0)) == WritesPastStorage(MaxVertices)
  {
    var storage := seq(MaxVertices, _ => BlankCall());
    var qs := seq(MaxVertices, _ => Quad(0.0, 0.0, 16.0, 16.0));
    DrawAllKeepsPrefix(Init(p, storage), qs);
  }
}

=== FILE: context3d.dfy ===
/** The OpenGL ES 2 3D context of src/version2/vgl3d_gl2es.c: the context
    record and its transitions, the per-quad submission sequence, the packed
    quad constants, and shader initialisation. The camera is the file's pair
    of globals `_camEyePos`/`_camEyeRot`, kept here as a separate record. */
module Context3D {
  import opened Mem
  import opened Geometry
  import opened VglTypes
  import opened Gl
  import Shading2D
  import Renderer2D

  /** The context's private flags and the configuration fields the model
      uses. `title` is None on the Vita, which has no window title. */
  datatype Context = Context(platform: Platform, curBoundTex: nat, drawingInProgress: bool,
                             doContinue: bool, width: nat, height: nat, title: Option<string>,
                             curShaderID: nat)

  /** `_camEyePos` and `_camEyeRot` (degrees). */
  datatype Camera = Camera(pos: Vec3, rot: Vec3)

  const InitialCamera: Camera := Camera(Vec3(0.0, 0.0, -2.0), Zero3)

  const WindowTitle: string := "VGL3D_GL2ES"

  /** `VGL3D_Create`. `curShaderID` lives in freshly allocated configuration
      memory that `Create` does not initialise; `shaderSlot` is its contents. */
  function Create(p: Platform, shaderSlot: nat): (c: Context)
    ensures c.platform == p
    ensures c.curBoundTex == 0 && !c.drawingInProgress && c.doContinue
    ensures c.width == 960 && c.height == 544
    ensures c.title.Some? <==> p == Desktop
    ensures c.title.Some? ==> c.title.value == WindowTitle
  {
    Context(p, 0, false, true, 960, 544, if p == Desktop then Some(WindowTitle) else None, shaderSlot)
  }

  /** `VGL3D_Begin`; `shouldClose` is what `glfwWindowShouldClose` reports. */
  function Begin(c: Context, shouldClose: bool): (c2: Context)
    ensures c2.drawingInProgress
    ensures c2.doContinue == (if c.platform == Desktop then !shouldClose else c.doContinue)
    ensures c2.(drawingInProgress := c.drawingInProgress, doContinue := c.doContinue) == c
  {
    var c1 := c.(drawingInProgress := true);
    if c.platform == Desktop then c1.(doContinue := !shouldClose) else c1
  }

  datatype Transition = Transition(context: Context, trace: seq<Call>)

  /** `VGL3D_End`: the frame is over and presented. */
  function End(c: Context): (s: Transition)
    ensures !s.context.drawingInProgress
    ensures s.context.(drawingInProgress := c.drawingInProgress) == c
    ensures s.trace == Present(c.platform)
  {
    Transition(c.(drawingInProgress := false), Present(c.platform))
  }

  /** `VGL3D_BindTexture`. */
  function BindTexture(c: Context, tex: nat): (s: Transition)
    ensures s.context.curBoundTex == tex
    ensures s.context.(curBoundTex := c.curBoundTex) == c
    ensures forall st :: Run(st, s.trace) == st.(texture := tex)
  {
    var t := [BindTexture2D(tex)];
    assert forall st :: Run(st, t) == Run(Step(st, t[0]), t[1..]);
    Transition(c.(curBoundTex := tex), t)
  }

  /** `VGL3D_SetCamera`: position and rotation are replaced by the arguments. */
  function SetCamera(cam: Camera, pos: Vec3, rotDeg: Vec3): (cam2: Camera)
    ensures cam2.pos == pos && cam2.rot == rotDeg
  {
    Camera(pos, rotDeg)
  }

  // ---------------------------------------------------------------- quad constants

  /** `_quad_indices`: two triangles over the four quad corners. */
  const QuadIndices: seq<nat> := [0, 1, 2, 0, 2, 3]

  /** `VGL_COMPONENTS_PER_VERTEX`: x, y, z, u, v. */
  const ComponentsPerVertex: nat := 5

  /** `_quad_vertices_packed`: four interleaved vertices. */
  const QuadVerticesPacked: seq<real> := [
    -0.5, -0.5, 1.0, 0.0, 1.0,
    -0.5,  0.5, 1.0, 0.0, 0.0,
     0.5,  0.5, 1.0, 1.0, 0.0,
     0.5, -0.5, 1.0, 1.0, 1.0]

  /** The byte size of the initial `glBufferData` upload. */
  const QuadUploadBytes: nat := FloatSize * ComponentsPerVertex * 4

  /** Position (3 floats at 0) and texture coordinate (2 floats at 3). */
  function QuadAttributeSlices(): (s: seq<Slice>)
    ensures |s| == 2
    ensures Tiles(s, 0, ComponentsPerVertex)
  {
    var s := [Slice(0, 3), Slice(3, 2)];
    assert Tiles(s[1..][1..], 5, 5);
    assert Tiles(s[1..], 3, 5);
    s
  }

  /** The quad constants agree with one another: every index names one of the
      four vertices, and the initial upload is exactly the packed array. */
  lemma QuadConstantsAgree()
    ensures |QuadVerticesPacked| == 4 * ComponentsPerVertex
    ensures forall i :: 0 <= i < |QuadIndices| ==> QuadIndices[i] < |QuadVerticesPacked| / ComponentsPerVertex
    ensures QuadUploadBytes == FloatSize * |QuadVerticesPacked|
  {
  }

  /** The two attribute slices of the quad layout are disjoint and lie within
      one stride. */
  lemma QuadSlicesDisjoint()
    ensures QuadAttributeSlices()[0].offset + QuadAttributeSlices()[0].size <= QuadAttributeSlices()[1].offset
    ensures QuadAttributeSlices()[1].offset + QuadAttributeSlices()[1].size <= ComponentsPerVertex
  {
    TilesDisjoint(QuadAttributeSlices(), 0, ComponentsPerVertex);
  }

  // ---------------------------------------------------------------- the quad submission

  /** The model matrix of a quad: translate, rotate about x, y, z, then scale. */
  function ModelMatrix(pos: Vec3, rotDeg: Vec3, scale: Vec3): Matrix {
    Composed([Translate(pos), RotateXDeg(rotDeg.x), RotateYDeg(rotDeg.y), RotateZDeg(rotDeg.z), Scale(scale)])
  }

  /** The view matrix `_VGL3D_UpdateViewProjection` builds from the camera. */
  function ViewMatrix(cam: Camera): Matrix {
    Composed([LookFrom(cam.pos, Vec3(0.0, 0.0, 1.0), Vec3(0.0, 1.0, 0.0)),
              RotateXDeg(cam.rot.x), RotateYDeg(cam.rot.y), RotateZDeg(cam.rot.z)])
  }

  /** The projection: field of view 90, the window's aspect, near 0.1, far 10000. */
  function ProjectionMatrix(c: Context): Matrix {
    Projected(Perspective(90.0, c.width, c.height, 0.1, 10000.0))
  }

  /** The vertex stride of the packed quad, in bytes. */
  const QuadStride: nat := FloatSize * ComponentsPerVertex

  /** Enabling attributes 0 (position) and 1 (texture coordinate) and
      pointing them into the packed quad buffer. */
  function QuadAttribSetup(): (t: seq<Call>)
    ensures |t| == 4
    ensures t[2].AttribPointer? && t[2].components == QuadAttributeSlices()[0].size
    ensures t[2].byteOffset == FloatSize * QuadAttributeSlices()[0].offset
    ensures t[3].AttribPointer? && t[3].components == QuadAttributeSlices()[1].size
    ensures t[3].byteOffset == FloatSize * QuadAttributeSlices()[1].offset
    ensures t[2].stride == t[3].stride == FloatSize * ComponentsPerVertex
  {
    [EnableAttrib(0), EnableAttrib(1),
     AttribPointer(0, 3, QuadStride, 0),
     AttribPointer(1, 2, QuadStride, FloatSize * 3)]
  }

  /** The colour, texture flag and the three matrices, set by uniform name. */
  function QuadUniforms(c: Context, cam: Camera, pos: Vec3, rotDeg: Vec3, scale: Vec3, rgba: Vec4): seq<Call> {
    [Uniform4Named("vColor", rgba),
     Uniform1iNamed("useTexture", if c.curBoundTex != 0 then 1 else 0),
     UniformMatrixNamed("_model", ModelMatrix(pos, rotDeg, scale)),
     UniformMatrixNamed("_view", ViewMatrix(cam)),
     UniformMatrixNamed("_projection", ProjectionMatrix(c))]
  }

  const QuadAttribTeardown: seq<Call> := [DisableAttrib(0), DisableAttrib(1)]

  /** `VGL3D_DrawQuad`: the calls it makes, in order. */
  function DrawQuad(c: Context, cam: Camera, pos: Vec3, rotDeg: Vec3, scale: Vec3, rgba: Vec4): (t: seq<Call>)
    ensures |t| == 12
    ensures t[9] == DrawElements(Triangles, |QuadIndices|, QuadIndices)
  {
    QuadAttribSetup() + QuadUniforms(c, cam, pos, rotDeg, scale, rgba)
    + [DrawElements(Triangles, |QuadIndices|, QuadIndices)] + QuadAttribTeardown
  }

  /** The texture flag a quad sends is 1 exactly when a texture is bound. */
  lemma DrawQuadUseTexture(c: Context, cam: Camera, pos: Vec3, rotDeg: Vec3, scale: Vec3, rgba: Vec4, flag: int)
    ensures Uniform1iNamed("useTexture", flag) in DrawQuad(c, cam, pos, rotDeg, scale, rgba)
        <==> flag == (if c.curBoundTex != 0 then 1 else 0)
  {
    var u := QuadUniforms(c, cam, pos, rotDeg, scale, rgba);
    var t := DrawQuad(c, cam, pos, rotDeg, scale, rgba);
    assert t[5] == u[1];
    if Uniform1iNamed("useTexture", flag) in t {
      var k :| 0 <= k < |t| && t[k] == Uniform1iNamed("useTexture", flag);
      assert k == 5;
    }
  }

  lemma QuadSetupRun(st: GlState)
    ensures Run(st, QuadAttribSetup()) == st.(enabled := st.enabled + {0, 1})
  {
    var a := QuadAttribSetup();
    RunFour(st, a[0], a[1], a[2], a[3]);
    assert a == [a[0], a[1], a[2], a[3]];
  }

  lemma QuadTeardownRun(st: GlState)
    ensures Run(st, QuadAttribTeardown) == st.(enabled := st.enabled - {0, 1})
  {
    var z := QuadAttribTeardown;
    RunCons(st, z[0], [z[1]]);
    RunCons(Step(st, z[0]), z[1], []);
    assert z == [z[0]] + [z[1]] && [z[1]] == [z[1]] + [];
  }

  /** A quad leaves the binding state as it found it, except that attributes
      0 and 1 end disabled. */
  lemma DrawQuadRestoresAttributes(c: Context, cam: Camera, pos: Vec3, rotDeg: Vec3, scale: Vec3, rgba: Vec4, st: GlState)
    ensures Run(st, DrawQuad(c, cam, pos, rotDeg, scale, rgba)) == st.(enabled := st.enabled - {0, 1})
  {
    var a, u, d, z := QuadAttribSetup(), QuadUniforms(c, cam, pos, rotDeg, scale, rgba),
                      [DrawElements(Triangles, |QuadIndices|, QuadIndices)], QuadAttribTeardown;
    RunAppend(st, a + u + d, z);
    RunAppend(st, a + u, d);
    RunAppend(st, a, u);
    QuadSetupRun(st);
    var s0 := st.(enabled := st.enabled + {0, 1});
    RunNeutral(s0, u);
    RunNeutral(s0, d);
    QuadTeardownRun(s0);
    assert s0.enabled - {0, 1} == st.enabled - {0, 1};
  }

  /** A quad draws exactly one indexed primitive: the six quad indices. */
  lemma DrawQuadDrawsOnce(c: Context, cam: Camera, pos: Vec3, rotDeg: Vec3, scale: Vec3, rgba: Vec4)
    ensures Keep(DrawQuad(c, cam, pos, rotDeg, scale, rgba), IsDrawElements)
         == [DrawElements(Triangles, |QuadIndices|, QuadIndices)]
  {
    var a, u, d, z := QuadAttribSetup(), QuadUniforms(c, cam, pos, rotDeg, scale, rgba),
                      [DrawElements(Triangles, |QuadIndices|, QuadIndices)], QuadAttribTeardown;
    KeepAppend(a + u + d, z, IsDrawElements);
    KeepAppend(a + u, d, IsDrawElements);
    KeepAppend(a, u, IsDrawElements);
    KeepNone(a, IsDrawElements);
    KeepNone(u, IsDrawElements);
    KeepAll(d, IsDrawElements);
    KeepNone(z, IsDrawElements);
  }

  // ---------------------------------------------------------------- shader initialisation

  /** The driver's answers during `_VGL3D_InitShading`. */
  datatype ShadingOracle3D = ShadingOracle3D(vertex: Shading2D.ShaderAnswer, fragment: Shading2D.ShaderAnswer,
                                             program: nat, linked: bool)

  datatype ShadingStep = ShadingStep(status: int, context: Context, trace: seq<Call>)

  /** `_VGL3D_InitShading`: both shaders are loaded (by the same failure logic
      as `LoadShader`) before either result is checked; the program id itself
      is not checked; on success the program becomes `curShaderID`. */
  function InitShading(c: Context, o: ShadingOracle3D): (s: ShadingStep)
    ensures s.status == 0 || s.status == -1
    ensures s.status == 0 <==>
      o.vertex.id != 0 && o.vertex.compiled && o.fragment.id != 0 && o.fragment.compiled && o.linked
    ensures s.status == 0 ==> s.context == c.(curShaderID := o.program)
    ensures s.status != 0 ==> s.context == c
    ensures CreateShader(VertexShader) in s.trace && CreateShader(FragmentShader) in s.trace
  {
    var vs := Shading2D.LoadShader(VertexShader, o.vertex);
    var fs := Shading2D.LoadShader(FragmentShader, o.fragment);
    var t1 := vs.trace + fs.trace;
    assert t1[0] == CreateShader(VertexShader) && t1[|vs.trace|] == CreateShader(FragmentShader);
    if vs.shader == 0 || fs.shader == 0 then
      ShadingStep(-1, c, t1)
    else
      var t2 := t1 + [CreateProgram, AttachShader(o.program, vs.shader), AttachShader(o.program, fs.shader),
                      BindAttribLocation(o.program, 0, "vPosition"), BindAttribLocation(o.program, 1, "vTexCoord"),
                      LinkProgram(o.program)];
      assert t2[0] == t1[0] && t2[|vs.trace|] == t1[|vs.trace|];
      if !o.linked then ShadingStep(-1, c, t2)
      else ShadingStep(0, c.(curShaderID := o.program), t2)
  }

  /** Unlike the 2D renderer, the 3D context creates the fragment shader even
      when the vertex shader failed; both report failure. */
  lemma FragmentLoadedDespiteVertexFailure(p: Platform, r: Renderer2D.Renderer, c: Context,
                                           o: Shading2D.ShadingOracle)
    requires o.vertex.id == 0
    ensures CreateShader(FragmentShader) in InitShading(c, ShadingOracle3D(o.vertex, o.fragment, o.program, o.linked)).trace
    ensures CreateShader(FragmentShader) !in Shading2D.InitShading(p, r, o).trace
    ensures InitShading(c, ShadingOracle3D(o.vertex, o.fragment, o.program, o.linked)).status == -1
    ensures Shading2D.InitShading(p, r, o).status == -1
  {
  }
}

=== FILE: gamepad.dfy ===
/** The PS Vita gamepad back end of src/vgl3d/input/tesla_input_vita.c and
    the button bitmask of src/vgl3d/input/tesla_input.h. The controller's
    sampled button word is a parameter of the poll. */
module Gamepad {
  import opened Mem

  /** `TeslaButtonType`. */
  datatype Button =
    | Select | LStickIn | RStickIn | Start
    | DpadUp | DpadRight | DpadDown | DpadLeft
    | LTrigger | RTrigger | LBumper | RBumper
    | FaceNorth | FaceEast | FaceSouth | FaceWest

  /** The value of each `TeslaButtonType` enumerator. */
  function Mask(b: Button): bv32 {
    match b
    case Select => 0x0000_0001
    case LStickIn => 0x0000_0002
    case RStickIn => 0x0000_0004
    case Start => 0x0000_0008
    case DpadUp => 0x0000_0010
    case DpadRight => 0x0000_0020
    case DpadDown => 0x0000_0040
    case DpadLeft => 0x0000_0080
    case LTrigger => 0x0000_0100
    case RTrigger => 0x0000_0200
    case LBumper => 0x0000_0400
    case RBumper => 0x0000_0800
    case FaceNorth => 0x0000_1000
    case FaceEast => 0x0000_2000
    case FaceSouth => 0x0000_4000
    case FaceWest => 0x0000_8000
  }

  /** The one-bit fields of the private `Btns` struct, in declaration order;
      the bit each occupies is its position, counted from the low end. */
  const BitfieldOrder: seq<Button> := [
    Select, LStickIn, RStickIn, Start, DpadUp, DpadRight, DpadDown, DpadLeft,
    LTrigger, RTrigger, LBumper, RBumper, FaceNorth, FaceEast, FaceSouth, FaceWest]

  /** 1 shifted left by `n`, for the sixteen low bits. */
  function Bit(n: nat): (m: bv32)
    requires n < 16
    ensures m != 0 && m & (m - 1) == 0
  {
    (1 as bv32) << n
  }

  /** The enumerators are sixteen distinct single bits within the low 16 bits. */
  lemma MasksAreDistinctBits(b: Button, c: Button)
    ensures Mask(b) != 0 && Mask(b) & (Mask(b) - 1) == 0 && Mask(b) < 0x1_0000
    ensures b != c ==> Mask(b) & Mask(c) == 0
  {
  }

  /** Each enumerator is the bit of the matching field of the private `Btns`
      struct, so the struct and the enumeration read the same word alike. */
  lemma BitfieldLayoutAgrees(b: Button)
    ensures |BitfieldOrder| == 16 && b in BitfieldOrder
    ensures forall i :: 0 <= i < |BitfieldOrder| ==> Mask(BitfieldOrder[i]) == Bit(i)
  {
  }

  /** `TeslaGamepadPrivate`'s button word, and whether the vtable provides
      `IsButtonUp` and `IsButtonHeld`. */
  datatype Gamepad = Gamepad(bitfield: bv32, providesUpAndHeld: bool)

  /** `TInput_Create`: no button down. The initializer does not set
      `IsButtonUp` or `IsButtonHeld`, so they are NULL. */
  function Create(): (g: Gamepad)
    ensures forall b :: !IsButtonDown(g, Mask(b))
    ensures !g.providesUpAndHeld
  {
    Gamepad(0, false)
  }

  /** `TInput_Poll_Vita`, with `sampled` the button word the controller
      reports: the bitfield is replaced wholesale. */
  function Poll(g: Gamepad, sampled: bv32): (r: Gamepad)
    ensures r.bitfield == sampled
    ensures r.providesUpAndHeld == g.providesUpAndHeld
  {
    g.(bitfield := sampled)
  }

  /** `TInput_IsButtonDown_Vita`: the bitfield masked by the button. The C
      function returns these 32 bits as an `int`: not a 0/1 flag, but
      nonzero exactly when some bit of the mask was set at the last poll,
      and made only of bits of the mask. */
  function IsButtonDownValue(g: Gamepad, btn: bv32): (r: bv32)
    ensures r != 0 <==> IsButtonDown(g, btn)
    ensures r & !btn == 0
  {
    g.bitfield & btn
  }

  /** Whether `IsButtonDown` reports the mask as down. */
  predicate IsButtonDown(g: Gamepad, btn: bv32) {
    g.bitfield & btn != 0
  }

  /** For a single button the value is its own mask when it is down, and the
      buttons polled are read back one by one. */
  lemma SingleButtonReadsItsBit(sampled: bv32, b: Button)
    ensures IsButtonDownValue(Poll(Create(), sampled), Mask(b)) == (if sampled & Mask(b) != 0 then Mask(b) else 0)
  {
    MasksAreDistinctBits(b, b);
    var m := Mask(b);
    if sampled & m != 0 {
      SingleBitMask(sampled, m);
    }
  }

  lemma SingleBitMask(x: bv32, m: bv32)
    requires m != 0 && m & (m - 1) == 0 && x & m != 0
    ensures x & m == m
  {
  }

  /** The sampling modes of the Vita controller driver; only analog is set here. */
  datatype SamplingMode = DigitalOnly | Analog

  const InitMessage: string := "Initialized Tesla Gamepad Input for PS Vita"

  /** The effects of `TInput_InitBackend_Vita`, in order: a log line, then the
      controller's sampling mode; and the status returned. */
  datatype Initialised = Initialised(log: seq<string>, mode: SamplingMode, status: int)

  /** `TInput_InitBackend_Vita`: logs, switches the controller to analog
      sampling whatever mode it was in, and always succeeds; so a second
      initialisation has exactly the effects of the first. */
  function InitBackend(g: Gamepad, previous: SamplingMode): (r: Initialised)
    ensures r.status == 0
    ensures r.mode == Analog
    ensures r.log == [InitMessage]
  {
    Initialised([InitMessage], Analog, 0)
  }

  const FreeingMessage: string := "Freeing private data...."

  /** What `TInput_DestroySelf_Vita` leaves: the private data pointer and the
      messages it logged. */
  datatype Destroyed = Destroyed(data: Ptr<Gamepad>, log: seq<string>)

  /** `TInput_DestroySelf_Vita`: logs that it frees, whether or not there is
      anything to free, then frees the private data when non-NULL. */
  function DestroySelf(data: Ptr<Gamepad>): (r: Destroyed)
    requires !data.Dangling?
    ensures data.Null? ==> r.data.Null?
    ensures data.Live? ==> r.data.Dangling?
    ensures r.log == [FreeingMessage]
  {
    Destroyed(FreeIfNonNull(data).0, [FreeingMessage])
  }
}

=== FILE: geometry.dfy ===
/** Vectors, the 3D vertex record and symbolic transforms.
    Coordinates are reals used only for storage and addition; matrix
    numerics are kept symbolic (the order of composition is what is modelled). */
module Geometry {

  datatype Vec3 = Vec3(x: real, y: real, z: real)

  datatype Vec4 = Vec4(r: real, g: real, b: real, a: real)

  const Zero3: Vec3 := Vec3(0.0, 0.0, 0.0)
  const One3: Vec3 := Vec3(1.0, 1.0, 1.0)

  /** The mesh vertex: position (x, y, z) followed by texture coordinates (u, v). */
  datatype Vertex = Vertex(x: real, y: real, z: real, u: real, v: real)

  /** One step of a cglm matrix construction, recorded instead of computed. */
  datatype Xform =
    | Translate(t: Vec3)
    | RotateXDeg(degrees: real)
    | RotateYDeg(degrees: real)
    | RotateZDeg(degrees: real)
    | Scale(s: Vec3)
    | LookFrom(eye: Vec3, dir: Vec3, up: Vec3)

  /** A projection, recorded by its parameters. */
  datatype Projection =
    | Unset
    | Perspective(fovy: real, aspectNum: nat, aspectDen: nat, near: real, far: real)
    | OrthoLhZo(left: real, right: real, bottom: real, top: real, near: real, far: real)
}

=== FILE: gl.dfy ===
/** The graphics calls the renderers make, recorded as events of an abstract
    trace, and the small piece of GL binding state those calls change.
    Nothing here computes pixels: a trace is what a test double would record. */
module Gl {
  import opened Mem
  import opened Geometry
  import opened VglTypes

  datatype Primitive = TriangleStrip | Triangles

  datatype ShaderKind = VertexShader | FragmentShader

  /** A matrix uniform's value, kept symbolic. */
  datatype Matrix = Composed(steps: seq<Xform>) | Projected(p: Projection)

  datatype Call =
    // buffers and programs
    | BindBuffer(buffer: int)
    | BufferData(size: nat, floats: seq<real>)
    | BufferSubData(offset: nat, size: nat, data: seq<Vert>)
    | UseProgram(program: int)
    // vertex attributes
    | EnableAttrib(index: int)
    | DisableAttrib(index: int)
    | AttribPointer(index: int, components: nat, stride: nat, byteOffset: nat)
    // uniforms
    | UniformMatrixAt(location: int, m: Matrix)
    | UniformMatrixNamed(name: string, m: Matrix)
    | Uniform4Named(name: string, v: Vec4)
    | Uniform1iNamed(name: string, value: int)
    // drawing
    | DrawArrays(mode: Primitive, first: nat, count: nat)
    | DrawElements(mode: Primitive, count: nat, indices: seq<nat>)
    | BindTexture2D(texture: nat)
    | ClearColorBuffer
    // shaders
    | CreateShader(kind: ShaderKind)
    | CompileShader(shader: nat)
    | DeleteShader(shader: nat)
    | CreateProgram
    | AttachShader(program: int, shader: nat)
    | BindAttribLocation(program: int, index: int, name: string)
    | LinkProgram(program: int)
    // window system
    | SwapBuffers
    | PollEvents
    // diagnostics that are printed, not acted on
    | LogTooManyCalls(calls: nat)
    | LogUploadSkipped(offset: nat, size: nat, bufferSize: nat)
    // the mesh-facing graphics interface
    | CreateVBOWithVertexData(vertices: Ptr<seq<Vertex>>, count: nat)
    | DrawFromVBO(handle: nat, count: nat)
    | DrawFromVBOTranslation(handle: nat, count: nat, pos: Vec3, rot: Vec3, scale: Vec3)
    | DrawFromVBOTranslationIndices(handle: nat, count: nat, pos: Vec3, rot: Vec3, scale: Vec3,
                                    indexData: Ptr<seq<nat>>, indexCount: nat)

  /** The buffer swap that ends a frame; on the desktop it is followed by
      the GLFW event poll. */
  function Present(p: Platform): (t: seq<Call>)
    ensures |t| >= 1 && t[0] == SwapBuffers
    ensures PollEvents in t <==> p == Desktop
  {
    if p == Desktop then [SwapBuffers, PollEvents] else [SwapBuffers]
  }

  /** The GL binding state the renderers touch. */
  datatype GlState = GlState(enabled: set<int>, arrayBuffer: int, program: int, texture: nat)

  function Step(st: GlState, c: Call): GlState {
    match c
    case EnableAttrib(i) => st.(enabled := st.enabled + {i})
    case DisableAttrib(i) => st.(enabled := st.enabled - {i})
    case BindBuffer(b) => st.(arrayBuffer := b)
    case UseProgram(p) => st.(program := p)
    case BindTexture2D(t) => st.(texture := t)
    case _ => st
  }

  /** The binding state after replaying a trace. */
  function Run(st: GlState, t: seq<Call>): GlState
    decreases |t|
  {
    if |t| == 0 then st else Run(Step(st, t[0]), t[1..])
  }

  lemma {:induction false} RunAppend(st: GlState, a: seq<Call>, b: seq<Call>)
    ensures Run(st, a + b) == Run(Run(st, a), b)
    decreases |a|
  {
    if |a| == 0 {
      assert a + b == b;
    } else {
      assert (a + b)[1..] == a[1..] + b;
      RunAppend(Step(st, a[0]), a[1..], b);
    }
  }

  /** Replaying a one-call prefix is one step. */
  lemma RunCons(st: GlState, c: Call, t: seq<Call>)
    ensures Run(st, [c] + t) == Run(Step(st, c), t)
  {
    assert ([c] + t)[1..] == t;
  }

  /** Replaying four calls is four steps. */
  lemma RunFour(st: GlState, a: Call, b: Call, c: Call, d: Call)
    ensures Run(st, [a, b, c, d]) == Step(Step(Step(Step(st, a), b), c), d)
  {
    RunCons(st, a, [b, c, d]);
    RunCons(Step(st, a), b, [c, d]);
    RunCons(Step(Step(st, a), b), c, [d]);
    RunCons(Step(Step(Step(st, a), b), c), d, []);
    assert [a, b, c, d] == [a] + [b, c, d] && [b, c, d] == [b] + [c, d] && [c, d] == [c] + [d] && [d] == [d] + [];
  }

  /** A trace none of whose calls changes binding state leaves it alone. */
  lemma {:induction false} RunNeutral(st: GlState, t: seq<Call>)
    requires forall i :: 0 <= i < |t| ==> Step(st, t[i]) == st
    ensures Run(st, t) == st
    decreases |t|
  {
    if |t| > 0 {
      assert forall i :: 0 <= i < |t[1..]| ==> t[1..][i] == t[i + 1];
      RunNeutral(st, t[1..]);
    }
  }

  predicate IsDrawArrays(c: Call) { c.DrawArrays? }
  predicate IsUpload(c: Call) { c.BufferSubData? }
  predicate IsAttribPointer(c: Call) { c.AttribPointer? }
  predicate IsDrawElements(c: Call) { c.DrawElements? }

  /** The calls of `t` that satisfy `keep`, in order. */
  function Keep(t: seq<Call>, keep: Call -> bool): (r: seq<Call>)
    ensures |r| <= |t|
    decreases |t|
  {
    if |t| == 0 then []
    else (if keep(t[0]) then [t[0]] else []) + Keep(t[1..], keep)
  }

  lemma {:induction false} KeepAppend(a: seq<Call>, b: seq<Call>, keep: Call -> bool)
    ensures Keep(a + b, keep) == Keep(a, keep) + Keep(b, keep)
    decreases |a|
  {
    if |a| == 0 {
      assert a + b == b;
    } else {
      var h := if keep(a[0]) then [a[0]] else [];
      assert (a + b)[0] == a[0];
      assert (a + b)[1..] == a[1..] + b;
      KeepAppend(a[1..], b, keep);
      assert Keep(a + b, keep) == h + (Keep(a[1..], keep) + Keep(b, keep));
      assert Keep(a, keep) == h + Keep(a[1..], keep);
    }
  }

  /** Keep selects: every kept call occurs in the trace and passes the filter. */
  lemma {:induction false} KeepSelects(t: seq<Call>, keep: Call -> bool)
    ensures forall c :: c in Keep(t, keep) ==> c in t && keep(c)
    decreases |t|
  {
    if |t| > 0 {
      KeepSelects(t[1..], keep);
    }
  }

  /** Keeping from a trace all of whose calls pass keeps the whole trace. */
  lemma {:induction false} KeepAll(t: seq<Call>, keep: Call -> bool)
    requires forall i :: 0 <= i < |t| ==> keep(t[i])
    ensures Keep(t, keep) == t
    decreases |t|
  {
    if |t| > 0 {
      assert forall i :: 0 <= i < |t[1..]| ==> t[1..][i] == t[i + 1];
      KeepAll(t[1..], keep);
    }
  }

  /** Keeping from a trace none of whose calls passes keeps nothing. */
  lemma {:induction false} KeepNone(t: seq<Call>, keep: Call -> bool)
    requires forall i :: 0 <= i < |t| ==> !keep(t[i])
    ensures Keep(t, keep) == []
    decreases |t|
  {
    if |t| > 0 {
      assert forall i :: 0 <= i < |t[1..]| ==> t[1..][i] == t[i + 1];
      KeepNone(t[1..], keep);
    }
  }
}

=== FILE: glerrors.dfy ===
/** GL error codes and their names: `GET_GL_ERROR` and `CHECK_GL_ERROR` of
    src/vgl_renderer.h (which write into a caller's character buffer), and
    `SAFE_GET_GL_ERROR` and `CHECK_GL_ERROR` of src/version2/vgl3d_gl2es.c
    (which select a name). Codes are those of section 2.5 of the OpenGL
    specification. */
module GlErrors {
  import opened Mem

  const NoError: nat := 0
  const InvalidEnum: nat := 0x0500
  const InvalidValue: nat := 0x0501
  const InvalidOperation: nat := 0x0502
  const StackOverflow: nat := 0x0503
  const StackUnderflow: nat := 0x0504
  const OutOfMemory: nat := 0x0505

  /** The six error codes the sources name. */
  predicate Known(code: nat) {
    code in {InvalidEnum, InvalidValue, InvalidOperation, OutOfMemory, StackUnderflow, StackOverflow}
  }

  const InvalidEnumName: string := "GL_INVALID_ENUM"
  const InvalidValueName: string := "GL_INVALID_VALUE"
  const InvalidOpName: string := "GL_INVALID_OPERATION"
  const OutOfMemName: string := "GL_OUT_OF_MEMORY"
  const StackUnderName: string := "GL_STACK_UNDERFLOW"
  const StackOverName: string := "GL_STACK_OVERFLOW"
  const UnknownName: string := "GL_UNKNOWN. Sorry."

  /** The name string each branch of the switch is meant to produce. */
  function ErrorName(code: nat): (name: string)
    ensures Known(code) ==> name != UnknownName
    ensures !Known(code) ==> name == UnknownName
  {
    if code == InvalidEnum then InvalidEnumName
    else if code == InvalidValue then InvalidValueName
    else if code == InvalidOperation then InvalidOpName
    else if code == OutOfMemory then OutOfMemName
    else if code == StackUnderflow then StackUnderName
    else if code == StackOverflow then StackOverName
    else UnknownName
  }

  /** The inverse of the name table, as an independent reference. */
  function CodeOfName(name: string): (code: Option<nat>)
    ensures code.Some? ==> Known(code.value)
  {
    if name == InvalidEnumName then Some(InvalidEnum)
    else if name == InvalidValueName then Some(InvalidValue)
    else if name == InvalidOpName then Some(InvalidOperation)
    else if name == OutOfMemName then Some(OutOfMemory)
    else if name == StackUnderName then Some(StackUnderflow)
    else if name == StackOverName then Some(StackOverflow)
    else None
  }

  /** The name table is a bijection between the known codes and their names,
      and every other code maps to the one name that no code owns. */
  lemma ErrorNameRoundTrip(code: nat, name: string)
    ensures CodeOfName(name) == Some(code) <==> (Known(code) && ErrorName(code) == name)
    ensures CodeOfName(UnknownName) == None
  {
  }

  // ---------------------------------------------------------------- memory of the string literals

  /** The byte at offset i from the start of a string literal: its characters,
      its terminating NUL, then whatever lies after it in memory (`after`). */
  function ByteAt(lit: string, after: nat -> char, i: nat): char {
    if i < |lit| then lit[i] else if i == |lit| then '\0' else after(i - |lit| - 1)
  }

  /** `memcpy(dst, lit, n)`: the first n bytes of `dst` become the n bytes
      starting at `lit`; the rest of `dst` is untouched. */
  function Memcpy(dst: seq<char>, lit: string, after: nat -> char, n: nat): (r: seq<char>)
    requires n <= |dst|
    ensures |r| == |dst|
    ensures forall i :: 0 <= i < n ==> r[i] == ByteAt(lit, after, i)
    ensures r[n..] == dst[n..]
  {
    seq(n, i requires 0 <= i < n => ByteAt(lit, after, i)) + dst[n..]
  }

  /** Whether a copy of n bytes from `lit` reads past its NUL terminator. */
  predicate ReadsPastLiteral(lit: string, n: nat) {
    n > |lit| + 1
  }

  /** A `memcpy` from a string literal: source literal and byte count. */
  datatype Copy = Copy(lit: string, n: nat)

  /** The literal and byte count each branch of `GET_GL_ERROR` passes to
      `memcpy`, as written: the `GL_INVALID_OPERATION` branch copies from the
      `GL_INVALID_VALUE` literal but takes the length of `GL_INVALID_OPERATION`. */
  function CaseCopy(code: nat): Copy {
    if code == InvalidEnum then Copy(InvalidEnumName, |InvalidEnumName|)
    else if code == InvalidValue then Copy(InvalidValueName, |InvalidValueName|)
    else if code == InvalidOperation then Copy(InvalidValueName, |InvalidOpName|)
    else if code == OutOfMemory then Copy(OutOfMemName, |OutOfMemName|)
    else if code == StackUnderflow then Copy(StackUnderName, |StackUnderName|)
    else if code == StackOverflow then Copy(StackOverName, |StackOverName|)
    else Copy("", 0)
  }

  /** Bytes the longest copy of `GET_GL_ERROR` writes. */
  const LongestCopy: nat := |InvalidOpName|

  /** `GET_GL_ERROR` as written: the switch copies (without a NUL) and then,
      for every code, the unconditional copy of `GL_UNKNOWN. Sorry.` follows.
      `after` is the memory that follows the `GL_INVALID_VALUE` literal. */
  function GetGlErrorAsWritten(code: nat, output: seq<char>, after: nat -> char): (r: seq<char>)
    requires |output| >= LongestCopy
    ensures |r| == |output|
    ensures r[..|UnknownName|] == UnknownName
    ensures code != InvalidOperation ==> r[|UnknownName|..] == output[|UnknownName|..]
    ensures code == InvalidOperation ==>
      r[|UnknownName|..LongestCopy] == [after(1), after(2)] && r[LongestCopy..] == output[LongestCopy..]
  {
    var c := CaseCopy(code);
    var first := Memcpy(output, c.lit, after, c.n);
    var r := Memcpy(first, UnknownName, after, |UnknownName|);
    assert r[..|UnknownName|] == UnknownName;
    if code == InvalidOperation then
      assert r[|UnknownName|..LongestCopy] == [first[18], first[19]];
      r
    else
      r
  }

  /** Finding: the `GL_INVALID_OPERATION` branch reads three bytes past the end
      of the `GL_INVALID_VALUE` literal, and no other branch reads past its own. */
  lemma InvalidOperationOverReads(code: nat)
    ensures ReadsPastLiteral(CaseCopy(code).lit, CaseCopy(code).n) <==> code == InvalidOperation
    ensures CaseCopy(InvalidOperation).n - (|CaseCopy(InvalidOperation).lit| + 1) == 3
  {
  }

  /** The text a C string consumer (`printf("%s")`) sees in a buffer: the
      characters before the first NUL, or None when the buffer holds no NUL. */
  function CString(buf: seq<char>): (s: Option<string>)
    ensures s.Some? ==> |s.value| < |buf| && s.value == buf[..|s.value|] && buf[|s.value|] == '\0'
    ensures s.Some? ==> forall i :: 0 <= i < |s.value| ==> s.value[i] != '\0'
    ensures s.None? ==> forall i :: 0 <= i < |buf| ==> buf[i] != '\0'
  {
    if |buf| == 0 then None
    else if buf[0] == '\0' then Some([])
    else match CString(buf[1..])
      case None => None
      case Some(rest) => Some([buf[0]] + rest)
  }

  /** Finding: whatever the code, the name `GET_GL_ERROR` leaves for a known
      code is never that code's name; e.g. a zeroed buffer reads `GL_UNKNOWN. Sorry.`
      after `GL_INVALID_ENUM`. */
  lemma AsWrittenNeverNamesKnownCode(code: nat, output: seq<char>, after: nat -> char)
    requires |output| >= LongestCopy && Known(code)
    ensures CString(GetGlErrorAsWritten(code, output, after)) != Some(ErrorName(code))
  {
    var r := GetGlErrorAsWritten(code, output, after);
    var name := ErrorName(code);
    assert r[..|UnknownName|] == UnknownName;
    assert name[10] != UnknownName[10];
  }

  /** A terminated copy of the name selected by `SAFE_GET_GL_ERROR`: the
      behaviour the writer evidently intends. */
  function GetGlErrorIntended(code: nat, output: seq<char>): (r: seq<char>)
    requires |output| > LongestCopy
    ensures |r| == |output|
    ensures CString(r) == Some(ErrorName(code))
    ensures r[|ErrorName(code)| + 1..] == output[|ErrorName(code)| + 1..]
  {
    var name := ErrorName(code);
    var r := name + ['\0'] + output[|name| + 1..];
    CStringOfTerminated(name, output[|name| + 1..]);
    r
  }

  /** Reading back a NUL-free name followed by a NUL gives the name. */
  lemma {:induction false} CStringOfTerminated(name: string, rest: seq<char>)
    requires forall i :: 0 <= i < |name| ==> name[i] != '\0'
    ensures CString(name + ['\0'] + rest) == Some(name)
    decreases |name|
  {
    var buf := name + ['\0'] + rest;
    if |name| > 0 {
      assert buf[0] == name[0] != '\0';
      assert buf[1..] == name[1..] + ['\0'] + rest;
      CStringOfTerminated(name[1..], rest);
      assert name == [name[0]] + name[1..];
    } else {
      assert buf[0] == '\0';
    }
  }

  /** What `CHECK_GL_ERROR` logs: the caller's prefix and a message. */
  datatype ErrorLog = ErrorLog(prefix: string, message: seq<char>)

  /** `CHECK_GL_ERROR` of src/vgl_renderer.h: with `code` the value `glGetError`
      returned and `buffer` the uninitialised 128-byte stack buffer, logs the
      buffer after `GET_GL_ERROR` exactly when an error is pending. */
  function CheckGlError2D(prefix: string, code: nat, buffer: seq<char>, after: nat -> char): (log: Option<ErrorLog>)
    requires |buffer| == 128
    ensures log.Some? <==> code != NoError
    ensures log.Some? ==>
      log.value.prefix == prefix && |log.value.message| == 128 && log.value.message[..|UnknownName|] == UnknownName
  {
    if code != NoError then Some(ErrorLog(prefix, GetGlErrorAsWritten(code, buffer, after))) else None
  }

  /** `CHECK_GL_ERROR` of src/version2/vgl3d_gl2es.c: logs the selected name
      exactly when an error is pending. */
  function CheckGlError3D(prefix: string, code: nat): (log: Option<ErrorLog>)
    ensures log.Some? <==> code != NoError
    ensures log.Some? ==>
      log.value.prefix == prefix && CodeOfName(log.value.message) == (if Known(code) then Some(code) else None)
  {
    if code != NoError then Some(ErrorLog(prefix, ErrorName(code))) else None
  }
}

=== FILE: glfw_input.dfy ===
/** The GLFW input constants the keyboard and mouse back ends rely on: the
    three key/button actions, the key-code range and the number of mouse
    buttons, as defined by GLFW 3. */
module GlfwInput {
  const Release: nat := 0
  const Press: nat := 1
  const Repeat: nat := 2

  /** `GLFW_KEY_LAST` (the code of the Menu key) and `GLFW_KEY_UNKNOWN`. */
  const KeyLast: int := 348
  const KeyUnknown: int := -1

  /** Buttons `GLFW_MOUSE_BUTTON_1` to `GLFW_MOUSE_BUTTON_LAST`. */
  const MouseButtonCount: nat := 8

  /** An action GLFW reports to a key or mouse-button callback. */
  predicate IsAction(a: nat) {
    a == Release || a == Press || a == Repeat
  }

  /** A state array of `n` entries, each a GLFW action. */
  ghost predicate States(s: seq<nat>, n: nat) {
    |s| == n && forall i :: 0 <= i < |s| ==> IsAction(s[i])
  }

  /** The three per-entry queries: down means PRESS, held REPEAT, up RELEASE. */
  predicate Down(s: seq<nat>, i: nat) { i < |s| && s[i] == Press }
  predicate Held(s: seq<nat>, i: nat) { i < |s| && s[i] == Repeat }
  predicate Up(s: seq<nat>, i: nat) { i < |s| && s[i] == Release }

  /** The queries are mutually exclusive, and on an action entry exactly one holds. */
  lemma QueriesExclusive(s: seq<nat>, i: nat)
    ensures !(Down(s, i) && Held(s, i)) && !(Down(s, i) && Up(s, i)) && !(Held(s, i) && Up(s, i))
    ensures i < |s| && IsAction(s[i]) ==> Down(s, i) || Held(s, i) || Up(s, i)
  {
  }
}

=== FILE: input_common.dfy ===
/** The tagged input constructor of src/vgl3d/input/tesla_input.h: one
    `Input` value holding whichever device the requested type names. */
module InputCommon {
  import opened Mem
  import opened GlfwInput
  import Keyboard
  import Mouse
  import Gamepad

  /** `InputType`'s enumerators. */
  const KeyboardType: int := 0
  const MouseType: int := 1
  const TouchType: int := 2
  const GamepadType: int := 3

  /** The active arm of the `Input` union. `NotBuilt` is an arm no
      constructor wrote: touch and unknown types. */
  datatype Device =
    | KeyboardDevice(keyboard: Keyboard.Keyboard)
    | MouseDevice(mouse: Mouse.Mouse)
    | GamepadDevice(gamepad: Gamepad.Gamepad)
    | NotBuilt

  /** `Input`, with the messages logged while building it. */
  datatype Input = Input(device: Device, inputType: int, log: seq<string>)

  /** The message logged for an unsupported type (the `%d` is rendered as the
      type number's digits, which the model does not spell out). */
  const NotSupported: string := "Not supported yet: "

  /** `CommonInput_Create`; `kbdLeftover` is the uninitialised window field
      of a new keyboard (see `Keyboard.Create`). */
  function Create(inputType: int, kbdLeftover: Option<nat>): (r: Input)
    ensures r.inputType == inputType
    ensures inputType == GamepadType <==> r.device.GamepadDevice?
    ensures inputType == KeyboardType <==> r.device.KeyboardDevice?
    ensures inputType == MouseType <==> r.device.MouseDevice?
    ensures r.device.GamepadDevice? ==> r.device.gamepad == Gamepad.Create()
    ensures r.device.KeyboardDevice? ==> r.device.keyboard == Keyboard.Create(kbdLeftover)
    ensures r.device.MouseDevice? ==> r.device.mouse == Mouse.Create()
    ensures r.log == [] <==> !r.device.NotBuilt?
    ensures r.device.NotBuilt? ==> r.log == [NotSupported]
  {
    var device :=
      if inputType == GamepadType then GamepadDevice(Gamepad.Create())
      else if inputType == KeyboardType then KeyboardDevice(Keyboard.Create(kbdLeftover))
      else if inputType == MouseType then MouseDevice(Mouse.Create())
      else NotBuilt;
    Input(device, inputType, if device.NotBuilt? then [NotSupported] else [])
  }

  /** Touch and every value outside the enumeration are flagged, yet a value
      is still returned carrying the requested type. */
  lemma UnsupportedTypesStillReturn(inputType: int, kbdLeftover: Option<nat>)
    ensures Create(inputType, kbdLeftover).device.NotBuilt? <==> inputType !in {KeyboardType, MouseType, GamepadType}
    ensures Create(TouchType, kbdLeftover).device.NotBuilt?
  {
  }

  /** Whatever device is built starts idle when read through its own
      queries: no key or mouse button is down or held, and no gamepad button
      is down. */
  lemma CreatedInputIsIdle(inputType: int, kbdLeftover: Option<nat>)
    ensures var d := Create(inputType, kbdLeftover).device;
      && (d.KeyboardDevice? ==> forall i: nat :: i < KeyLast ==> !Down(d.keyboard.keys, i) && !Held(d.keyboard.keys, i))
      && (d.MouseDevice? ==> forall b: nat :: b < MouseButtonCount ==> !Down(d.mouse.buttons, b) && !Held(d.mouse.buttons, b))
      && (d.GamepadDevice? ==> forall b :: !Gamepad.IsButtonDown(d.gamepad, Gamepad.Mask(b)))
  {
  }
}

=== FILE: keyboard.dfy ===
/** The GLFW keyboard back end of src/version2/input/tesla_input_glfw.c: a
    state per key, written by GLFW's key callback while events are pumped,
    and promoted from PRESS to REPEAT by each poll. The callback reaches the
    keyboard through a global pointer that the first poll sets; `registered`
    says whether it is set. */
module Keyboard {
  import opened Mem
  import opened GlfwInput

  /** `TeslaKdbPrivate`: the window listened to, and the current and
      previous-poll state of each of the `GLFW_KEY_LAST` keys. */
  datatype Keyboard = Keyboard(window: Option<nat>, keys: seq<nat>, lastKeys: seq<nat>)

  ghost predicate Valid(k: Keyboard) {
    States(k.keys, KeyLast) && States(k.lastKeys, KeyLast)
  }

  /** `TKbd_Create`: every key RELEASE in both arrays. The source leaves the
      window field uninitialised; `leftover` is whatever the allocation held. */
  function Create(leftover: Option<nat>): (k: Keyboard)
    ensures Valid(k)
    ensures forall i :: 0 <= i < KeyLast ==> Up(k.keys, i) && Up(k.lastKeys, i)
    ensures k.window == leftover
  {
    Keyboard(leftover, seq(KeyLast, _ => Release), seq(KeyLast, _ => Release))
  }

  /** `TKdb_InitBackend_glfw`: with a window, listen to it and return 0;
      with NULL, change nothing and return -1. */
  datatype InitResult = InitResult(status: int, keyboard: Keyboard)

  function InitBackend(k: Keyboard, existing: Option<nat>): (r: InitResult)
    ensures r.status == 0 <==> existing.Some?
    ensures r.status == 0 || r.status == -1
    ensures existing.Some? ==> r.keyboard == k.(window := existing)
    ensures existing.None? ==> r.keyboard == k
  {
    if existing.Some? then InitResult(0, k.(window := existing)) else InitResult(-1, k)
  }

  /** The entry `Tkdb_KeyCallback_private` as written writes for a key code,
      or None when no keyboard is registered. It indexes the array with the
      key code unchecked. */
  function CallbackTargetAsWritten(registered: bool, key: int): (slot: Option<int>)
    ensures slot.Some? <==> registered
    ensures slot.Some? ==> slot.value == key
  {
    if registered then Some(key) else None
  }

  /** Finding: the unknown-key code and the Menu key (`GLFW_KEY_LAST` itself)
      both make the callback write outside the `GLFW_KEY_LAST`-entry array. */
  lemma CallbackAsWrittenWritesOutside()
    ensures var s := CallbackTargetAsWritten(true, KeyUnknown); s.Some? && !(0 <= s.value < KeyLast)
    ensures var s := CallbackTargetAsWritten(true, KeyLast); s.Some? && !(0 <= s.value < KeyLast)
  {
  }

  /** `Tkdb_KeyCallback_private` with the bounds check it needs: a key code
      outside the array is ignored. Inside it, the conditional REPEAT write is
      immediately overwritten by the action. */
  function KeyCallback(k: Keyboard, registered: bool, key: int, action: nat): (r: Keyboard)
    requires Valid(k) && IsAction(action)
    ensures Valid(r)
    ensures registered && 0 <= key < KeyLast ==> r == k.(keys := k.keys[key := action])
    ensures !(registered && 0 <= key < KeyLast) ==> r == k
  {
    if !registered || !(0 <= key < KeyLast) then k
    else
      var marked := if (action == Press || action == Repeat) && k.keys[key] == Press
                    then k.keys[key := Repeat] else k.keys;
      k.(keys := marked[key := action])
  }

  /** One key event GLFW delivers. */
  datatype KeyEvent = KeyEvent(key: int, action: nat)

  ghost predicate Actions(events: seq<KeyEvent>) {
    forall i :: 0 <= i < |events| ==> IsAction(events[i].action)
  }

  /** The callback applied to each event in turn, as `glfwPollEvents` does. */
  function Deliver(k: Keyboard, registered: bool, events: seq<KeyEvent>): (r: Keyboard)
    requires Valid(k) && Actions(events)
    ensures Valid(r)
    ensures r.window == k.window && r.lastKeys == k.lastKeys
    ensures !registered ==> r == k
    decreases |events|
  {
    if events == [] then k
    else Deliver(KeyCallback(k, registered, events[0].key, events[0].action), registered, events[1..])
  }

  /** The last action delivered for a key overrides earlier ones; a key with
      no event keeps its state. */
  lemma {:induction false} DeliverLastWins(k: Keyboard, events: seq<KeyEvent>, key: nat)
    requires Valid(k) && Actions(events) && key < KeyLast
    ensures (forall e :: 0 <= e < |events| ==> events[e].key != key) ==>
      Deliver(k, true, events).keys[key] == k.keys[key]
    ensures |events| > 0 && events[|events| - 1].key == key ==>
      Deliver(k, true, events).keys[key] == events[|events| - 1].action
    decreases |events|
  {
    if events != [] {
      var k1 := KeyCallback(k, true, events[0].key, events[0].action);
      DeliverLastWins(k1, events[1..], key);
      assert events[1..] == [] ==> |events| == 1;
      if |events| > 1 {
        assert events[|events| - 1] == events[1..][|events[1..]| - 1];
      }
    }
  }

  datatype Polled = Polled(keyboard: Keyboard, registered: bool)

  /** `TKdb_PollInput_glfw`: with no window, nothing happens. Otherwise the
      pending `events` are pumped (reaching the keyboard only if one was
      registered before), the keyboard registers itself, every key that was
      PRESS at the last poll and is PRESS now becomes REPEAT, and the
      previous-poll array takes a copy of the result. */
  function Poll(k: Keyboard, registered: bool, events: seq<KeyEvent>): (p: Polled)
    requires Valid(k) && Actions(events)
    ensures Valid(p.keyboard)
    ensures k.window.None? ==> p == Polled(k, registered)
    ensures k.window.Some? ==> p.registered && p.keyboard.window == k.window
    ensures k.window.Some? ==> p.keyboard.lastKeys == p.keyboard.keys
    ensures k.window.Some? ==> forall i :: 0 <= i < KeyLast ==>
      var pumped := Deliver(k, registered, events).keys[i];
      p.keyboard.keys[i] == (if k.lastKeys[i] == Press && pumped == Press then Repeat else pumped)
  {
    if k.window.None? then Polled(k, registered)
    else
      var pumped := Deliver(k, registered, events);
      var promoted := seq(KeyLast, i requires 0 <= i < KeyLast =>
                          if k.lastKeys[i] == Press && pumped.keys[i] == Press then Repeat else pumped.keys[i]);
      Polled(Keyboard(k.window, promoted, promoted), true)
  }

  /** The first poll loses its events: the callback finds no keyboard
      registered yet, so only the promotion step applies. */
  lemma FirstPollDropsEvents(k: Keyboard, events: seq<KeyEvent>)
    requires Valid(k) && Actions(events) && k.window.Some?
    ensures Poll(k, false, events) == Poll(k, false, [])
  {
  }

  /** A key reads down for exactly one poll: a further poll that delivers no
      event for it turns PRESS into REPEAT, and it then stays held. */
  lemma DownLastsOnePoll(k: Keyboard, registered: bool, events: seq<KeyEvent>, key: nat)
    requires Valid(k) && Actions(events) && k.window.Some? && key < KeyLast
    ensures var k1 := Poll(k, registered, events).keyboard;
      Down(k1.keys, key) ==> Held(Poll(k1, true, []).keyboard.keys, key)
    ensures var k1 := Poll(k, registered, events).keyboard;
      Held(k1.keys, key) ==> Held(Poll(k1, true, []).keyboard.keys, key)
  {
  }

  /** A key pressed (with a keyboard registered) and not released reads as
      held after the next poll. */
  lemma PressedKeyIsHeldAfterTwoPolls(k: Keyboard, key: nat)
    requires Valid(k) && k.window.Some? && key < KeyLast
    ensures var k1 := Poll(k, true, [KeyEvent(key, Press)]).keyboard;
      Held(Poll(k1, true, []).keyboard.keys, key)
  {
    var events := [KeyEvent(key, Press)];
    assert events[1..] == [];
    assert Deliver(k, true, events).keys[key] == Press;
  }

  /** `TKdb_DestroySelf_glfw`: the private data is freed when non-NULL. */
  function DestroySelf(data: Ptr<Keyboard>): (r: Ptr<Keyboard>)
    requires !data.Dangling?
    ensures data.Null? ==> r.Null?
    ensures data.Live? ==> r.Dangling?
  {
    FreeIfNonNull(data).0
  }
}

=== FILE: mem.dfy ===
/** Nullable values and owned heap pointers, as the C sources use them. */
module Mem {

  /** A value that may be absent: the C sources' NULL-able arguments and results. */
  datatype Option<+T> = None | Some(value: T)

  /** An owned heap pointer. `Dangling` is a pointer that was passed to `free`
      but not reset to NULL: it still compares unequal to NULL. */
  datatype Ptr<+T> = Null | Live(val: T) | Dangling {

    /** The C test `p != NULL`, which a dangling pointer also passes. */
    predicate NonNull() {
      !Null?
    }
  }

  /** `free(p)` guarded by `p != NULL`, as every destroy function here writes it.
      Returns the pointer afterwards and whether a live block was released
      (freeing a dangling pointer is reported as not released). */
  function FreeIfNonNull<T>(p: Ptr<T>): (r: (Ptr<T>, bool))
    ensures p.Null? ==> r == (Null, false)
    ensures p.NonNull() ==> r.0.Dangling?
    ensures r.1 <==> p.Live?
  {
    match p
    case Null => (Null, false)
    case Live(_) => (Dangling, true)
    case Dangling => (Dangling, false)
  }

  function Min(a: nat, b: nat): nat {
    if a <= b then a else b
  }
}

=== FILE: mesh_draw.dfy ===
/** The draw step shared by both mesh revisions (src/vgl3d/mesh/mesh.c and
    src/version2/mesh/mesh.c): bind the mesh's texture through the context,
    then draw indexed when the mesh holds indices, non-indexed otherwise. */
module MeshDraw {
  import opened Mem
  import opened Geometry
  import opened Gl
  import Context3D

  /** How a draw positions the mesh: `Draw` leaves it untransformed,
      `DrawTranslate` passes a position, rotation and scale. */
  datatype Placement = Untransformed | Placed(pos: Vec3, rot: Vec3, scale: Vec3)

  /** The test both revisions use to choose the indexed path. */
  predicate HasIndices(indices: Ptr<seq<nat>>, numIndices: nat) {
    numIndices > 0 && indices.NonNull()
  }

  /** The drawing call of `Draw`/`DrawTranslate`. */
  function MeshDrawCall(handle: nat, numVertices: nat, indices: Ptr<seq<nat>>, numIndices: nat,
                        placement: Placement): (c: Call)
    ensures c.DrawFromVBOTranslationIndices? <==> HasIndices(indices, numIndices)
    ensures c.DrawFromVBO? <==> !HasIndices(indices, numIndices) && placement.Untransformed?
    ensures c.DrawFromVBOTranslation? <==> !HasIndices(indices, numIndices) && placement.Placed?
    ensures c.handle == handle && c.count == numVertices
    ensures c.DrawFromVBOTranslationIndices? ==> c.indexData == indices && c.indexCount == numIndices
    ensures c.DrawFromVBOTranslationIndices? && placement.Untransformed? ==>
      c.pos == Zero3 && c.rot == Zero3 && c.scale == One3
    ensures !c.DrawFromVBO? && placement.Placed? ==>
      c.pos == placement.pos && c.rot == placement.rot && c.scale == placement.scale
  {
    if HasIndices(indices, numIndices) then
      match placement
      case Untransformed => DrawFromVBOTranslationIndices(handle, numVertices, Zero3, Zero3, One3, indices, numIndices)
      case Placed(pos, rot, scale) => DrawFromVBOTranslationIndices(handle, numVertices, pos, rot, scale, indices, numIndices)
    else
      match placement
      case Untransformed => DrawFromVBO(handle, numVertices)
      case Placed(pos, rot, scale) => DrawFromVBOTranslation(handle, numVertices, pos, rot, scale)
  }

  /** Texture binding followed by the drawing call. */
  datatype Drawn = Drawn(context: Context3D.Context, trace: seq<Call>)

  function BindAndDraw(c: Context3D.Context, texture: nat, handle: nat, numVertices: nat,
                       indices: Ptr<seq<nat>>, numIndices: nat, placement: Placement): (d: Drawn)
    ensures d.context == c.(curBoundTex := texture)
    ensures d.trace == [BindTexture2D(texture), MeshDrawCall(handle, numVertices, indices, numIndices, placement)]
  {
    var bound := Context3D.BindTexture(c, texture);
    Drawn(bound.context, bound.trace + [MeshDrawCall(handle, numVertices, indices, numIndices, placement)])
  }
}

=== FILE: mesh_v1.dfy ===
/** The mesh of src/vgl3d/mesh/mesh.c: vertex and index buffers, a dirty
    flag, an optional free-after-upload optimisation, and lazy upload on draw.
    `CreateVBOWithVertexData` is an oracle: its returned handle is a parameter. */
module MeshV1 {
  import opened Mem
  import opened Geometry
  import opened Gl
  import opened MeshDraw
  import Context3D

  /** `TeslaMesh` of this revision. */
  datatype Mesh = Mesh(vertices: Ptr<seq<Vertex>>, numVertices: nat,
                       indices: Ptr<seq<nat>>, numIndices: nat,
                       hasChanged: bool, freeAfterUpload: bool,
                       meshGpuHandle: nat, textureGpuHandle: nat)

  /** Neither buffer pointer refers to freed memory. The C functions read,
      `realloc` or `free` both pointers whenever they are non-NULL, which is
      undefined for a pointer already freed. */
  predicate NoDangling(m: Mesh) {
    !m.vertices.Dangling? && !m.indices.Dangling?
  }

  /** `TestMesh_Create`. */
  function Create(): (m: Mesh)
    ensures m.vertices.Null? && m.indices.Null? && m.numVertices == 0 && m.numIndices == 0
    ensures !m.hasChanged && !m.freeAfterUpload
    ensures m.meshGpuHandle == 0 && m.textureGpuHandle == 0
  {
    Mesh(Null, 0, Null, 0, false, false, 0, 0)
  }

  /** The upload rule of this revision. */
  predicate NeedsUpload(m: Mesh) {
    m.meshGpuHandle == 0 || (m.hasChanged && !m.freeAfterUpload)
  }

  datatype Upload = Upload(mesh: Mesh, trace: seq<Call>)

  /** `TestMesh_private_CheckUploadOrRefresh`, with `handle` the value
      `CreateVBOWithVertexData` returns. */
  function CheckUploadOrRefresh(m: Mesh, handle: nat): (u: Upload)
    requires NoDangling(m)
    ensures NeedsUpload(m) ==> u.trace == [CreateVBOWithVertexData(m.vertices, m.numVertices)]
    ensures NeedsUpload(m) ==> !u.mesh.hasChanged && u.mesh.meshGpuHandle == handle
    ensures NeedsUpload(m) && m.freeAfterUpload ==> u.mesh.vertices.Null?
    ensures NeedsUpload(m) && !m.freeAfterUpload ==> u.mesh.vertices == m.vertices
    ensures !NeedsUpload(m) ==> u == Upload(m, [])
    ensures u.mesh.numVertices == m.numVertices && u.mesh.indices == m.indices
    ensures u.mesh.numIndices == m.numIndices && u.mesh.freeAfterUpload == m.freeAfterUpload
    ensures u.mesh.textureGpuHandle == m.textureGpuHandle
    ensures NoDangling(u.mesh)
  {
    if NeedsUpload(m) then
      var uploaded := m.(hasChanged := false, meshGpuHandle := handle);
      var kept := if m.freeAfterUpload && m.vertices.NonNull() then uploaded.(vertices := Null) else uploaded;
      Upload(kept, [CreateVBOWithVertexData(m.vertices, m.numVertices)])
    else
      Upload(m, [])
  }

  datatype DrawStep = DrawStep(mesh: Mesh, context: Context3D.Context, trace: seq<Call>)

  /** `TestMesh_Draw` (placement `Untransformed`) and `TestMesh_DrawTranslate`
      (placement `Placed`). */
  function Draw(m: Mesh, c: Context3D.Context, handle: nat, placement: Placement): (s: DrawStep)
    requires NoDangling(m)
    ensures s.mesh == CheckUploadOrRefresh(m, handle).mesh
    ensures s.context == c.(curBoundTex := m.textureGpuHandle)
    ensures s.trace == CheckUploadOrRefresh(m, handle).trace
                       + [BindTexture2D(m.textureGpuHandle),
                          MeshDrawCall(s.mesh.meshGpuHandle, m.numVertices, m.indices, m.numIndices, placement)]
  {
    var u := CheckUploadOrRefresh(m, handle);
    var d := BindAndDraw(c, u.mesh.textureGpuHandle, u.mesh.meshGpuHandle, u.mesh.numVertices,
                         u.mesh.indices, u.mesh.numIndices, placement);
    DrawStep(u.mesh, d.context, u.trace + d.trace)
  }

  /** Whether a trace holds an upload. */
  predicate Uploads(t: seq<Call>) {
    exists i :: 0 <= i < |t| && t[i].CreateVBOWithVertexData?
  }

  /** Lazy upload: a draw uploads exactly when the mesh needs it, and once a
      nonzero handle is stored, a second draw with nothing changed in between
      does not upload again. */
  lemma DrawUploadsOnce(m: Mesh, c: Context3D.Context, h1: nat, h2: nat, p1: Placement, p2: Placement)
    requires NoDangling(m) && h1 != 0
    ensures Uploads(Draw(m, c, h1, p1).trace) <==> NeedsUpload(m)
    ensures !Uploads(Draw(Draw(m, c, h1, p1).mesh, Draw(m, c, h1, p1).context, h2, p2).trace)
  {
    var s1 := Draw(m, c, h1, p1);
    var t1 := s1.trace;
    var u := CheckUploadOrRefresh(m, h1);
    if NeedsUpload(m) {
      assert t1[0].CreateVBOWithVertexData?;
    } else {
      assert !t1[0].CreateVBOWithVertexData? && !t1[1].CreateVBOWithVertexData?;
    }
    var s2 := Draw(s1.mesh, s1.context, h2, p2);
    assert !NeedsUpload(s1.mesh);
    assert !s2.trace[0].CreateVBOWithVertexData? && !s2.trace[1].CreateVBOWithVertexData?;
  }

  /** With free-after-upload set, a mesh that already has a handle is never
      re-uploaded, even when marked changed. */
  lemma FreeAfterUploadSuppressesRefresh(m: Mesh, handle: nat)
    requires NoDangling(m) && m.meshGpuHandle != 0 && m.freeAfterUpload
    ensures CheckUploadOrRefresh(m, handle) == Upload(m, [])
  {
  }

  datatype InitResult = InitResult(status: int, mesh: Mesh)

  /** `TestMesh_InitWithVertices`: -1 and no change on NULL data; otherwise
      the buffer holds a copy of the first `vertexCount` vertices and the count
      is `vertexCount`. The changed flag is not touched. */
  function InitWithVertices(m: Mesh, data: Option<seq<Vertex>>, vertexCount: nat): (r: InitResult)
    requires NoDangling(m)
    requires data.Some? ==> vertexCount <= |data.value|
    ensures data.None? ==> r == InitResult(-1, m)
    ensures data.Some? ==> r.status == 0
    ensures data.Some? ==>
      r.mesh == m.(vertices := Live(data.value[..vertexCount]), numVertices := vertexCount)
    ensures NoDangling(r.mesh)
  {
    match data
    case None => InitResult(-1, m)
    case Some(src) => InitResult(0, m.(vertices := Live(src[..vertexCount]), numVertices := vertexCount))
  }

  /** Re-initialising the vertices of a mesh that was already uploaded leaves
      it without a pending upload: the new vertices are not sent. */
  lemma ReinitDoesNotMarkChanged(m: Mesh, data: seq<Vertex>)
    requires NoDangling(m) && m.meshGpuHandle != 0 && !m.hasChanged
    ensures !NeedsUpload(InitWithVertices(m, Some(data), |data|).mesh)
  {
  }

  /** `MESH_CUBE_VB_LENGTH` and `MESH_CUBE_IB_LENGTH` of this revision. */
  const CubeVertexCount: nat := 24
  const CubeIndexCount: nat := 36

  /** `pVertexBufferData` of this revision. */
  const CubeVertices: seq<Vertex> := [
    Vertex(-1.0, -1.0, -1.0, 0.38, 0.38), Vertex(-1.0, -1.0, -1.0, 0.12, 0.12),
    Vertex(-1.0, -1.0, -1.0, 0.38, 0.38), Vertex(-1.0, -1.0, -1.0, 0.62, 0.62),
    Vertex(-1.0, -1.0, -1.0, 0.62, 0.62), Vertex(-1.0, -1.0, -1.0, 0.88, 0.88),
    Vertex(-1.0, -1.0, -1.0, 0.38, 0.38), Vertex(-1.0, -1.0, -1.0, 0.12, 0.12),
    Vertex(-1.0, -1.0, -1.0, 0.38, 0.38), Vertex(-1.0, -1.0, -1.0, 0.62, 0.62),
    Vertex(-1.0, -1.0, -1.0, 0.62, 0.62), Vertex(-1.0, -1.0, -1.0, 0.88, 0.88),
    Vertex(1.0, 1.0, 1.0, 0.38, 0.38), Vertex(1.0, 1.0, 1.0, 0.38, 0.38),
    Vertex(1.0, 1.0, 1.0, 0.38, 0.38), Vertex(1.0, 1.0, 1.0, 0.62, 0.62),
    Vertex(1.0, 1.0, 1.0, 0.62, 0.62), Vertex(1.0, 1.0, 1.0, 0.62, 0.62),
    Vertex(1.0, 1.0, 1.0, 0.38, 0.38), Vertex(1.0, 1.0, 1.0, 0.38, 0.38),
    Vertex(1.0, 1.0, 1.0, 0.38, 0.38), Vertex(1.0, 1.0, 1.0, 0.62, 0.62),
    Vertex(1.0, 1.0, 1.0, 0.62, 0.62), Vertex(1.0, 1.0, 1.0, 0.62, 0.62)]

  /** `pVertexBufferIndexData`: twelve triangles. */
  const CubeIndices: seq<nat> := [
    0, 3, 9,  0, 9, 6,  8, 10, 21,  8, 21, 19,  20, 23, 17,  20, 17, 14,
    13, 15, 4,  13, 4, 2,  7, 18, 12,  7, 12, 1,  22, 11, 5,  22, 5, 16]

  /** The cube's constants agree: 24 vertices, 36 indices, every index below 24. */
  lemma CubeConstantsAgree()
    ensures |CubeVertices| == CubeVertexCount && |CubeIndices| == CubeIndexCount
    ensures forall i :: 0 <= i < |CubeIndices| ==> CubeIndices[i] < CubeVertexCount
  {
  }

  /** `TestMesh_InitWithDefaultCube`: install the cube's vertices and indices
      and mark the mesh changed. */
  function InitWithDefaultCube(m: Mesh): (r: InitResult)
    requires NoDangling(m)
    ensures r.status == 0
    ensures r.mesh.vertices == Live(CubeVertices) && r.mesh.numVertices == CubeVertexCount
    ensures r.mesh.indices == Live(CubeIndices) && r.mesh.numIndices == CubeIndexCount
    ensures r.mesh.hasChanged
    ensures r.mesh.(vertices := m.vertices, numVertices := m.numVertices, indices := m.indices,
                    numIndices := m.numIndices, hasChanged := m.hasChanged) == m
  {
    var withVertices := InitWithVertices(m, Some(CubeVertices), CubeVertexCount).mesh;
    assert CubeVertices[..CubeVertexCount] == CubeVertices;
    InitResult(0, withVertices.(indices := Live(CubeIndices), numIndices := CubeIndexCount, hasChanged := true))
  }

  /** A default cube is uploaded unless the mesh already has a handle and
      frees after upload: then the stale buffer behind the old handle keeps
      being drawn. */
  lemma DefaultCubeUploadRule(m: Mesh)
    requires NoDangling(m)
    ensures NeedsUpload(InitWithDefaultCube(m).mesh) <==> m.meshGpuHandle == 0 || !m.freeAfterUpload
  {
  }

  /** A default cube draws on the indexed path with all of its vertices and
      all 36 indices. */
  lemma DefaultCubeDrawsIndexed(m: Mesh, c: Context3D.Context, handle: nat, p: Placement)
    requires NoDangling(m)
    ensures var t := Draw(InitWithDefaultCube(m).mesh, c, handle, p).trace;
      && |t| >= 2 && t[|t| - 2] == BindTexture2D(m.textureGpuHandle)
      && t[|t| - 1].DrawFromVBOTranslationIndices?
      && t[|t| - 1].count == CubeVertexCount
      && t[|t| - 1].indexData == Live(CubeIndices) && t[|t| - 1].indexCount == CubeIndexCount
  {
    var cube := InitWithDefaultCube(m).mesh;
    assert HasIndices(cube.indices, cube.numIndices);
  }

  /** `TestMesh_DestroySelf`; `None` is a NULL mesh pointer. Each non-NULL
      buffer is freed (its pointer left dangling) and its count zeroed. */
  function DestroySelf(m: Option<Mesh>): (r: Option<Mesh>)
    requires m.Some? ==> NoDangling(m.value)
    ensures m.None? ==> r.None?
    ensures m.Some? ==> r.Some?
    ensures m.Some? ==> (m.value.vertices.Null? ==> r.value.vertices.Null? && r.value.numVertices == m.value.numVertices)
    ensures m.Some? ==> (m.value.vertices.Live? ==> r.value.vertices.Dangling? && r.value.numVertices == 0)
    ensures m.Some? ==> (m.value.indices.Null? ==> r.value.indices.Null? && r.value.numIndices == m.value.numIndices)
    ensures m.Some? ==> (m.value.indices.Live? ==> r.value.indices.Dangling? && r.value.numIndices == 0)
    ensures m.Some? ==>
      r.value.(vertices := m.value.vertices, numVertices := m.value.numVertices,
               indices := m.value.indices, numIndices := m.value.numIndices) == m.value
  {
    match m
    case None => None
    case Some(mesh) =>
      var v := FreeIfNonNull(mesh.vertices);
      var i := FreeIfNonNull(mesh.indices);
      var m1 := if mesh.vertices.NonNull() then mesh.(vertices := v.0, numVertices := 0) else mesh;
      Some(if mesh.indices.NonNull() then m1.(indices := i.0, numIndices := 0) else m1)
  }
}

=== FILE: mesh_v2.dfy ===
/** The mesh of src/version2/mesh/mesh.c. Compared with the first revision it
    drops the free-after-upload optimisation, so a changed mesh is always
    re-uploaded, and its default cube is 36 unindexed vertices. */
module MeshV2 {
  import opened Mem
  import opened Geometry
  import opened Gl
  import opened MeshDraw
  import Context3D
  import MeshV1

  /** `TeslaMesh` of this revision. */
  datatype Mesh = Mesh(vertices: Ptr<seq<Vertex>>, numVertices: nat,
                       indices: Ptr<seq<nat>>, numIndices: nat,
                       hasChanged: bool, meshGpuHandle: nat, textureGpuHandle: nat)

  /** Neither buffer pointer refers to freed memory (see `MeshV1.NoDangling`). */
  predicate NoDangling(m: Mesh) {
    !m.vertices.Dangling? && !m.indices.Dangling?
  }

  /** `TestMesh_Create`. */
  function Create(): (m: Mesh)
    ensures m.vertices.Null? && m.indices.Null? && m.numVertices == 0 && m.numIndices == 0
    ensures !m.hasChanged && m.meshGpuHandle == 0 && m.textureGpuHandle == 0
  {
    Mesh(Null, 0, Null, 0, false, 0, 0)
  }

  /** The upload rule of this revision. */
  predicate NeedsUpload(m: Mesh) {
    m.meshGpuHandle == 0 || m.hasChanged
  }

  datatype Upload = Upload(mesh: Mesh, trace: seq<Call>)

  /** `TestMesh_private_CheckUploadOrRefresh`, with `handle` the value
      `CreateVBOWithVertexData` returns. */
  function CheckUploadOrRefresh(m: Mesh, handle: nat): (u: Upload)
    ensures NeedsUpload(m) ==> u.trace == [CreateVBOWithVertexData(m.vertices, m.numVertices)]
    ensures NeedsUpload(m) ==> u.mesh == m.(hasChanged := false, meshGpuHandle := handle)
    ensures !NeedsUpload(m) ==> u == Upload(m, [])
  {
    if NeedsUpload(m) then
      Upload(m.(hasChanged := false, meshGpuHandle := handle), [CreateVBOWithVertexData(m.vertices, m.numVertices)])
    else
      Upload(m, [])
  }

  datatype DrawStep = DrawStep(mesh: Mesh, context: Context3D.Context, trace: seq<Call>)

  /** `TestMesh_Draw` (placement `Untransformed`) and `TestMesh_DrawTranslate`
      (placement `Placed`). */
  function Draw(m: Mesh, c: Context3D.Context, handle: nat, placement: Placement): (s: DrawStep)
    ensures s.mesh == CheckUploadOrRefresh(m, handle).mesh
    ensures s.context == c.(curBoundTex := m.textureGpuHandle)
    ensures s.trace == CheckUploadOrRefresh(m, handle).trace
                       + [BindTexture2D(m.textureGpuHandle),
                          MeshDrawCall(s.mesh.meshGpuHandle, m.numVertices, m.indices, m.numIndices, placement)]
  {
    var u := CheckUploadOrRefresh(m, handle);
    var d := BindAndDraw(c, u.mesh.textureGpuHandle, u.mesh.meshGpuHandle, u.mesh.numVertices,
                         u.mesh.indices, u.mesh.numIndices, placement);
    DrawStep(u.mesh, d.context, u.trace + d.trace)
  }

  /** Lazy upload: a draw uploads exactly when the mesh needs it, a second
      draw with nothing changed in between does not upload again, and marking
      the mesh changed makes the next draw upload. */
  lemma DrawUploadsOnce(m: Mesh, c: Context3D.Context, h1: nat, h2: nat, p1: Placement, p2: Placement)
    requires h1 != 0
    ensures MeshV1.Uploads(Draw(m, c, h1, p1).trace) <==> NeedsUpload(m)
    ensures !MeshV1.Uploads(Draw(Draw(m, c, h1, p1).mesh, Draw(m, c, h1, p1).context, h2, p2).trace)
    ensures MeshV1.Uploads(Draw(Draw(m, c, h1, p1).mesh.(hasChanged := true), c, h2, p2).trace)
  {
    var s1 := Draw(m, c, h1, p1);
    if NeedsUpload(m) {
      assert s1.trace[0].CreateVBOWithVertexData?;
    } else {
      assert !s1.trace[0].CreateVBOWithVertexData? && !s1.trace[1].CreateVBOWithVertexData?;
    }
    var s2 := Draw(s1.mesh, s1.context, h2, p2);
    assert !s2.trace[0].CreateVBOWithVertexData? && !s2.trace[1].CreateVBOWithVertexData?;
    var s3 := Draw(s1.mesh.(hasChanged := true), c, h2, p2);
    assert s3.trace[0].CreateVBOWithVertexData?;
  }

  /** The same mesh state under both revisions. */
  function AsV1(m: Mesh, freeAfterUpload: bool): (m1: MeshV1.Mesh)
    ensures m1.freeAfterUpload == freeAfterUpload
    ensures m1.hasChanged == m.hasChanged && m1.meshGpuHandle == m.meshGpuHandle
  {
    MeshV1.Mesh(m.vertices, m.numVertices, m.indices, m.numIndices, m.hasChanged,
                freeAfterUpload, m.meshGpuHandle, m.textureGpuHandle)
  }

  /** The two revisions agree on when to upload except for a changed,
      already-uploaded mesh with free-after-upload set: the first revision
      keeps drawing the old buffer, this one uploads again. */
  lemma RevisionsDifferOnlyOnFreeAfterUpload(m: Mesh, freeAfterUpload: bool)
    ensures MeshV1.NeedsUpload(AsV1(m, freeAfterUpload)) != NeedsUpload(m) <==>
      m.meshGpuHandle != 0 && m.hasChanged && freeAfterUpload
  {
  }

  datatype InitResult = InitResult(status: int, mesh: Mesh)

  /** `TestMesh_InitWithVertices`, unchanged from the first revision: -1 and
      no change on NULL data; otherwise the buffer holds a copy of the first
      `vertexCount` vertices. The changed flag is not touched. */
  function InitWithVertices(m: Mesh, data: Option<seq<Vertex>>, vertexCount: nat): (r: InitResult)
    requires NoDangling(m)
    requires data.Some? ==> vertexCount <= |data.value|
    ensures data.None? ==> r == InitResult(-1, m)
    ensures data.Some? ==> r.status == 0
    ensures data.Some? ==>
      r.mesh == m.(vertices := Live(data.value[..vertexCount]), numVertices := vertexCount)
  {
    match data
    case None => InitResult(-1, m)
    case Some(src) => InitResult(0, m.(vertices := Live(src[..vertexCount]), numVertices := vertexCount))
  }

  /** Both revisions initialise vertices alike. */
  lemma InitWithVerticesAgrees(m: Mesh, freeAfterUpload: bool, data: Option<seq<Vertex>>, vertexCount: nat)
    requires NoDangling(m)
    requires data.Some? ==> vertexCount <= |data.value|
    ensures MeshV1.NoDangling(AsV1(m, freeAfterUpload))
    ensures MeshV1.InitWithVertices(AsV1(m, freeAfterUpload), data, vertexCount)
         == MeshV1.InitResult(InitWithVertices(m, data, vertexCount).status,
                              AsV1(InitWithVertices(m, data, vertexCount).mesh, freeAfterUpload))
  {
  }

  /** `MESH_CUBE_VB_LENGTH` of this revision. */
  const CubeVertexCount: nat := 36

  /** `pVertexBufferData` of this revision: twelve triangles, three vertices each. */
  const CubeVertices: seq<Vertex> := [
    Vertex(-1.0, -1.0, -1.0, 0.0, 1.0), Vertex(-1.0, -1.0, 1.0, 0.0, 0.0), Vertex(-1.0, 1.0, 1.0, 1.0, 0.0),
    Vertex(1.0, 1.0, -1.0, 0.0, 1.0), Vertex(-1.0, -1.0, -1.0, 0.0, 0.0), Vertex(-1.0, 1.0, -1.0, 1.0, 0.0),
    Vertex(1.0, -1.0, 1.0, 0.0, 1.0), Vertex(-1.0, -1.0, -1.0, 0.0, 0.0), Vertex(1.0, -1.0, -1.0, 1.0, 0.0),
    Vertex(1.0, 1.0, -1.0, 0.0, 1.0), Vertex(1.0, -1.0, -1.0, 0.0, 0.0), Vertex(-1.0, -1.0, -1.0, 1.0, 0.0),
    Vertex(-1.0, -1.0, -1.0, 0.0, 1.0), Vertex(-1.0, 1.0, 1.0, 0.0, 0.0), Vertex(-1.0, 1.0, -1.0, 1.0, 0.0),
    Vertex(1.0, -1.0, 1.0, 0.0, 1.0), Vertex(-1.0, -1.0, 1.0, 0.0, 0.0), Vertex(-1.0, -1.0, -1.0, 1.0, 0.0),
    Vertex(-1.0, 1.0, 1.0, 0.0, 1.0), Vertex(-1.0, -1.0, 1.0, 0.0, 0.0), Vertex(1.0, -1.0, 1.0, 1.0, 0.0),
    Vertex(1.0, 1.0, 1.0, 0.0, 1.0), Vertex(1.0, -1.0, -1.0, 0.0, 0.0), Vertex(1.0, 1.0, -1.0, 1.0, 0.0),
    Vertex(1.0, -1.0, -1.0, 0.0, 1.0), Vertex(1.0, 1.0, 1.0, 0.0, 0.0), Vertex(1.0, -1.0, 1.0, 1.0, 0.0),
    Vertex(1.0, 1.0, 1.0, 0.0, 1.0), Vertex(1.0, 1.0, -1.0, 0.0, 0.0), Vertex(-1.0, 1.0, -1.0, 1.0, 0.0),
    Vertex(1.0, 1.0, 1.0, 0.0, 1.0), Vertex(-1.0, 1.0, -1.0, 0.0, 0.0), Vertex(-1.0, 1.0, 1.0, 1.0, 0.0),
    Vertex(1.0, 1.0, 1.0, 0.0, 1.0), Vertex(-1.0, 1.0, 1.0, 0.0, 0.0), Vertex(1.0, -1.0, 1.0, 1.0, 0.0)]

  /** A vertex on the unit cube's surface: every coordinate is -1 or 1. */
  predicate IsCorner(v: Vertex) {
    (v.x == -1.0 || v.x == 1.0) && (v.y == -1.0 || v.y == 1.0) && (v.z == -1.0 || v.z == 1.0)
  }

  /** Three corners lying in one face of the cube: they share a coordinate. */
  predicate OnOneFace(a: Vertex, b: Vertex, c: Vertex) {
    (a.x == b.x == c.x) || (a.y == b.y == c.y) || (a.z == b.z == c.z)
  }

  /** The cube's vertices are 36 corners of the cube, twelve triangles' worth. */
  lemma CubeVerticesAreCorners()
    ensures |CubeVertices| == CubeVertexCount && CubeVertexCount % 3 == 0
    ensures forall i :: 0 <= i < |CubeVertices| ==> IsCorner(CubeVertices[i])
  {
  }

  /** Each of the twelve triangles lies inside one face of the cube. */
  lemma CubeTrianglesLieInFaces(t: nat)
    requires t < CubeVertexCount / 3
    ensures OnOneFace(CubeVertices[3 * t], CubeVertices[3 * t + 1], CubeVertices[3 * t + 2])
  {
  }

  /** A triangle mapped onto the texture as (0,1), (0,0), (1,0). */
  predicate LowerLeftTexCoords(a: Vertex, b: Vertex, c: Vertex) {
    a.u == 0.0 && a.v == 1.0 && b.u == 0.0 && b.v == 0.0 && c.u == 1.0 && c.v == 0.0
  }

  /** Every triangle of the cube uses the same texture mapping. */
  lemma CubeTrianglesShareTexCoords(t: nat)
    requires t < CubeVertexCount / 3
    ensures LowerLeftTexCoords(CubeVertices[3 * t], CubeVertices[3 * t + 1], CubeVertices[3 * t + 2])
  {
  }

  /** `TestMesh_InitWithDefaultCube` of this revision: only the vertices are
      set; indices and the changed flag are left as they were. */
  function InitWithDefaultCube(m: Mesh): (r: InitResult)
    requires NoDangling(m)
    ensures r.status == 0
    ensures r.mesh == m.(vertices := Live(CubeVertices), numVertices := CubeVertexCount)
  {
    assert CubeVertices[..CubeVertexCount] == CubeVertices;
    InitWithVertices(m, Some(CubeVertices), CubeVertexCount)
  }

  /** A fresh mesh set to the default cube draws its 36 vertices unindexed,
      after one upload. */
  lemma FreshCubeDrawsUnindexed(c: Context3D.Context, handle: nat, p: Placement)
    ensures var t := Draw(InitWithDefaultCube(Create()).mesh, c, handle, p).trace;
      t == [CreateVBOWithVertexData(Live(CubeVertices), CubeVertexCount), BindTexture2D(0),
            if p.Untransformed? then DrawFromVBO(handle, CubeVertexCount)
            else DrawFromVBOTranslation(handle, CubeVertexCount, p.pos, p.rot, p.scale)]
  {
  }

  /** Re-initialising an uploaded mesh to the cube leaves it without a
      pending upload: the cube is not sent, the old buffer is drawn. */
  lemma CubeOnUploadedMeshIsNotUploaded(m: Mesh)
    requires NoDangling(m) && m.meshGpuHandle != 0 && !m.hasChanged
    ensures !NeedsUpload(InitWithDefaultCube(m).mesh)
  {
  }

  /** `TestMesh_DestroySelf`, unchanged from the first revision, so defined
      through it; `None` is a NULL mesh pointer. */
  function DestroySelf(m: Option<Mesh>): (r: Option<Mesh>)
    requires m.Some? ==> NoDangling(m.value)
    ensures m.None? <==> r.None?
    ensures m.Some? ==> AsV1(r.value, false) == MeshV1.DestroySelf(Some(AsV1(m.value, false))).value
    ensures m.Some? ==> (m.value.vertices.Live? ==> r.value.vertices.Dangling? && r.value.numVertices == 0)
    ensures m.Some? ==> (m.value.indices.Live? ==> r.value.indices.Dangling? && r.value.numIndices == 0)
    ensures m.Some? ==> r.value.hasChanged == m.value.hasChanged && r.value.meshGpuHandle == m.value.meshGpuHandle
  {
    match m
    case None => None
    case Some(mesh) =>
      var d := MeshV1.DestroySelf(Some(AsV1(mesh, false))).value;
      Some(Mesh(d.vertices, d.numVertices, d.indices, d.numIndices, d.hasChanged, d.meshGpuHandle, d.textureGpuHandle))
  }

  /** Destroying leaves a mesh that nothing may free again: a second destroy
      is outside what the source allows exactly when the first freed something. */
  lemma DestroyTwiceIsDoubleFree(m: Mesh)
    requires NoDangling(m)
    ensures NoDangling(DestroySelf(Some(m)).value) <==> m.vertices.Null? && m.indices.Null?
  {
  }
}

=== FILE: mouse.dfy ===
/** The GLFW mouse back end of src/version2/input/tesla_input_mouse_glfw.c:
    eight button states written by GLFW's mouse-button callback whenever
    events are pumped, and a poll that promotes pressed buttons to REPEAT.
    The callback reaches the mouse through a global pointer set by
    `InitBackend` and by every poll; `registered` says whether it is set. */
module Mouse {
  import opened Mem
  import opened GlfwInput

  /** `TeslaMousePrivate`. */
  datatype Mouse = Mouse(window: Option<nat>, buttons: seq<nat>, lastButtons: seq<nat>, buttonsLen: nat)

  ghost predicate Valid(m: Mouse) {
    && States(m.buttons, MouseButtonCount) && States(m.lastButtons, MouseButtonCount)
    && m.buttonsLen == MouseButtonCount
  }

  /** `TMouse_Create`: the private data is zeroed (no window, every button
      RELEASE) and the button count is 8. */
  function Create(): (m: Mouse)
    ensures Valid(m) && m.window.None?
    ensures forall b :: 0 <= b < MouseButtonCount ==> Up(m.buttons, b) && Up(m.lastButtons, b)
  {
    Mouse(None, seq(MouseButtonCount, _ => Release), seq(MouseButtonCount, _ => Release), MouseButtonCount)
  }

  datatype Registered = Registered(status: int, mouse: Mouse, registered: bool)

  /** `TMouse_InitBackend_glfw`: registers the mouse, listens to the window
      when one is given, and returns 0 either way. */
  function InitBackend(m: Mouse, existing: Option<nat>): (r: Registered)
    ensures r.status == 0 && r.registered
    ensures existing.Some? ==> r.mouse == m.(window := existing)
    ensures existing.None? ==> r.mouse == m
  {
    Registered(0, if existing.Some? then m.(window := existing) else m, true)
  }

  /** `TMouse_private_glfwMouseCallback`: the button takes the action. The
      source asserts that a mouse is registered; GLFW only reports buttons
      below `GLFW_MOUSE_BUTTON_LAST + 1`. */
  function ButtonCallback(m: Mouse, registered: bool, button: nat, action: nat): (r: Mouse)
    requires Valid(m) && registered && button < MouseButtonCount && IsAction(action)
    ensures Valid(r)
    ensures r.buttons[button] == action
    ensures forall b :: 0 <= b < MouseButtonCount && b != button ==> r.buttons[b] == m.buttons[b]
    ensures r.lastButtons == m.lastButtons && r.window == m.window
  {
    m.(buttons := m.buttons[button := action])
  }

  /** One button event GLFW delivers. */
  datatype ButtonEvent = ButtonEvent(button: nat, action: nat)

  ghost predicate Events(events: seq<ButtonEvent>) {
    forall i :: 0 <= i < |events| ==> events[i].button < MouseButtonCount && IsAction(events[i].action)
  }

  /** The callback applied to each event in turn. */
  function Deliver(m: Mouse, events: seq<ButtonEvent>): (r: Mouse)
    requires Valid(m) && Events(events)
    ensures Valid(r) && r.lastButtons == m.lastButtons && r.window == m.window
    ensures events == [] ==> r == m
    decreases |events|
  {
    if events == [] then m
    else Deliver(ButtonCallback(m, true, events[0].button, events[0].action), events[1..])
  }

  /** `TMouse_PollInput` as written: every button that was PRESS at the last
      poll becomes REPEAT whatever its current state, then the previous-poll
      array takes a copy. The mouse registers itself. */
  function PollAsWritten(m: Mouse): (r: Mouse)
    requires Valid(m)
    ensures Valid(r) && r.window == m.window && r.lastButtons == r.buttons
    ensures forall b :: 0 <= b < MouseButtonCount ==>
      r.buttons[b] == (if m.lastButtons[b] == Press then Repeat else m.buttons[b])
  {
    var promoted := seq(MouseButtonCount, b requires 0 <= b < MouseButtonCount =>
                        if m.lastButtons[b] == Press then Repeat else m.buttons[b]);
    Mouse(m.window, promoted, promoted, m.buttonsLen)
  }

  /** Finding: a button pressed in one frame and released in the next reads
      as held after the second poll, and stays held through every later poll
      until GLFW reports another event for it. */
  lemma ReleasedButtonSticksHeld(button: nat, quietPolls: nat)
    requires button < MouseButtonCount
    ensures var pressed := PollAsWritten(Deliver(Create(), [ButtonEvent(button, Press)]));
      var released := PollAsWritten(Deliver(pressed, [ButtonEvent(button, Release)]));
      Held(QuietPollsAsWritten(released, quietPolls).buttons, button)
  {
    var e1 := [ButtonEvent(button, Press)];
    assert e1[1..] == [];
    var pressed := PollAsWritten(Deliver(Create(), e1));
    assert pressed.lastButtons[button] == Press;
    var e2 := [ButtonEvent(button, Release)];
    assert e2[1..] == [];
    var released := PollAsWritten(Deliver(pressed, e2));
    QuietPollsKeepHeld(released, quietPolls, button);
  }

  /** `n` polls as written with no events in between. */
  function QuietPollsAsWritten(m: Mouse, n: nat): (r: Mouse)
    requires Valid(m)
    ensures Valid(r) && r.window == m.window
    ensures n > 0 ==> r.lastButtons == r.buttons
    decreases n
  {
    if n == 0 then m else QuietPollsAsWritten(PollAsWritten(m), n - 1)
  }

  lemma {:induction false} QuietPollsKeepHeld(m: Mouse, n: nat, button: nat)
    requires Valid(m) && button < MouseButtonCount && m.lastButtons == m.buttons && Held(m.buttons, button)
    ensures Held(QuietPollsAsWritten(m, n).buttons, button)
    decreases n
  {
    if n > 0 {
      QuietPollsKeepHeld(PollAsWritten(m), n - 1, button);
    }
  }

  /** The poll the mouse evidently intends, matching the keyboard's: only a
      button that was PRESS and still is becomes REPEAT. */
  function Poll(m: Mouse): (r: Mouse)
    requires Valid(m)
    ensures Valid(r) && r.window == m.window && r.lastButtons == r.buttons
    ensures forall b :: 0 <= b < MouseButtonCount ==>
      r.buttons[b] == (if m.lastButtons[b] == Press && m.buttons[b] == Press then Repeat else m.buttons[b])
  {
    var promoted := seq(MouseButtonCount, b requires 0 <= b < MouseButtonCount =>
                        if m.lastButtons[b] == Press && m.buttons[b] == Press then Repeat else m.buttons[b]);
    Mouse(m.window, promoted, promoted, m.buttonsLen)
  }

  /** With the corrected poll a release always reads as up after the next
      poll, a press reads as down, and a press not followed by a release
      reads as held one poll later. */
  lemma PollReflectsLatestEvent(m: Mouse, events: seq<ButtonEvent>, button: nat)
    requires Valid(m) && Events(events) && button < MouseButtonCount
    ensures Up(Deliver(m, events).buttons, button) ==> Up(Poll(Deliver(m, events)).buttons, button)
    ensures Down(Deliver(m, events).buttons, button) && m.lastButtons[button] != Press ==>
      Down(Poll(Deliver(m, events)).buttons, button)
    ensures Down(Deliver(m, events).buttons, button) ==>
      Held(Poll(Poll(Deliver(m, events))).buttons, button)
  {
  }

  /** The two polls differ exactly on a button released since a poll that
      saw it pressed. */
  lemma PollsAgreeUnlessReleasedAfterPress(m: Mouse, button: nat)
    requires Valid(m) && button < MouseButtonCount
    ensures Poll(m).buttons[button] != PollAsWritten(m).buttons[button] <==>
      m.lastButtons[button] == Press && m.buttons[button] == Release
  {
  }

  /** `TMouse_DestroySelf`: nothing for a NULL mouse or NULL private data;
      otherwise the private data is freed. */
  function DestroySelf(self: Option<Ptr<Mouse>>): (r: Option<Ptr<Mouse>>)
    requires self.Some? ==> !self.value.Dangling?
    ensures self.None? ==> r.None?
    ensures self.Some? && self.value.Null? ==> r == self
    ensures self.Some? && self.value.Live? ==> r == Some(Dangling)
  {
    match self
    case None => None
    case Some(data) => Some(FreeIfNonNull(data).0)
  }
}

=== FILE: renderer2d.dfy ===
/** `repaint` of src/vgl_renderer.c: upload every pending draw call into the
    GPU buffer, draw each one as its own triangle strip, restore GL state,
    present, and reset the batch. */
module Renderer2D {
  import opened Mem
  import opened VglTypes
  import opened Geometry
  import opened Gl
  import opened Batch2D

  /** The enum value `GL_MAX_VERTEX_ATTRIBS`, against which the call count is
      compared (only a diagnostic is printed when it is exceeded). */
  const GlMaxVertexAttribs: nat := 0x8869

  /** The renderer's globals: batch, vertex buffer id, program id and the
      attribute/uniform locations found at shader initialisation. */
  datatype Renderer = Renderer(platform: Platform, batch: Batch, vbo: nat, program: int,
                               posIndex: int, colorIndex: int, mvpIndex: int)

  /** `cpu_mvp`: the left-handed orthographic screen projection made by `initGL`. */
  function CpuMvp(): Matrix {
    Projected(OrthoLhZo(0.0, 960.0, 544.0, 0.0, -1.0, 1.0))
  }

  // ---------------------------------------------------------------- layout of the uploaded buffer

  /** Which field of the uploaded vertex array a byte offset falls in: the vertex
      number and either one of its eight floats or its `obj_ptr`. */
  datatype VertField = FloatElem(index: nat) | ObjPtrField

  function FieldAt(p: Platform, offset: nat): (nat, VertField) {
    var size := if p == Vita then 36 else 40;
    assert size == VertBytes(p);
    var within := offset % size;
    (offset / size,
     if within < VertexAttrElemCount * FloatSize then FloatElem(within / FloatSize) else ObjPtrField)
  }

  /** The byte the GPU reads for component `c` of vertex `k` of an attribute
      declared with `stride` and `byteOffset`. */
  function AttribFetch(k: nat, stride: nat, byteOffset: nat, c: nat): nat {
    k * stride + byteOffset + c * FloatSize
  }

  /** The stride `repaint` declares: `VERTEX_ATTR_ELEM_COUNT * sizeof(GLfloat)`. */
  const AsWrittenStride: nat := VertexAttrElemCount * FloatSize

  /** The stride at which the uploaded vertices actually lie: `sizeof(vert)`. */
  function AttribStride(p: Platform): nat {
    VertBytes(p)
  }

  /** Byte `o` of record k of an array of records of `VertBytes(p)` bytes. */
  lemma DivModOfRecord(p: Platform, k: nat, o: nat)
    requires o < VertBytes(p)
    ensures (k * VertBytes(p) + o) / VertBytes(p) == k
    ensures (k * VertBytes(p) + o) % VertBytes(p) == o
  {
    if p == Vita {
      assert VertBytes(p) == 36;
    } else {
      assert VertBytes(p) == 40;
    }
  }

  /** Float `e` of vertex k, fetched at the corrected stride, is float `e` of
      vertex k. */
  lemma FetchAtRecordStride(p: Platform, k: nat, e: nat)
    requires e < VertexAttrElemCount
    ensures FieldAt(p, k * AttribStride(p) + e * FloatSize) == (k, FloatElem(e))
  {
    DivModOfRecord(p, k, e * FloatSize);
    assert (e * FloatSize) / FloatSize == e;
  }

  /** With the corrected stride, component c of the position and colour
      attributes of vertex k reads exactly float c of that slice of vertex k. */
  lemma CorrectedStrideReadsOwnVertex(p: Platform, k: nat, c: nat)
    ensures c < VertexPosSize ==>
      FieldAt(p, AttribFetch(k, AttribStride(p), VertexPosOffset * FloatSize, c))
        == (k, FloatElem(VertexPosOffset + c))
    ensures c < VertexColorSize ==>
      FieldAt(p, AttribFetch(k, AttribStride(p), VertexColorOffset * FloatSize, c))
        == (k, FloatElem(VertexColorOffset + c))
  {
    if c < VertexPosSize {
      assert AttribFetch(k, AttribStride(p), VertexPosOffset * FloatSize, c)
        == k * AttribStride(p) + (VertexPosOffset + c) * FloatSize;
      FetchAtRecordStride(p, k, VertexPosOffset + c);
    }
    if c < VertexColorSize {
      assert AttribFetch(k, AttribStride(p), VertexColorOffset * FloatSize, c)
        == k * AttribStride(p) + (VertexColorOffset + c) * FloatSize;
      FetchAtRecordStride(p, k, VertexColorOffset + c);
    }
  }

  /** Finding: with the stride as written, the position of vertex 1 is read from
      the `obj_ptr` bytes of vertex 0. */
  lemma AsWrittenStrideReadsPointer(p: Platform)
    ensures FieldAt(p, AttribFetch(1, AsWrittenStride, VertexPosOffset * FloatSize, 0)) == (0, ObjPtrField)
    ensures AsWrittenStride != AttribStride(p)
  {
  }

  // ---------------------------------------------------------------- the repaint trace

  /** Whether call k fits in a GPU buffer of `bufferSize` bytes at slot size `size`. */
  predicate Fits(k: nat, size: nat, bufferSize: nat) {
    k * size + size <= bufferSize
  }

  function UploadStep(slots: seq<DrawCall>, k: nat, size: nat, bufferSize: nat): Call
    requires k < |slots|
  {
    if !Fits(k, size, bufferSize) then LogUploadSkipped(k * size, size, bufferSize)
    else BufferSubData(k * size, size, slots[k].verts)
  }

  /** The upload loop of `repaint` from call i to call n: one step per call. */
  function UploadLoop(slots: seq<DrawCall>, i: nat, n: nat, size: nat, bufferSize: nat): (t: seq<Call>)
    requires i <= n <= |slots|
    ensures |t| == n - i
    ensures forall k :: i <= k < n ==> t[k - i] == UploadStep(slots, k, size, bufferSize)
    decreases n - i
  {
    if i == n then [] else [UploadStep(slots, i, size, bufferSize)] + UploadLoop(slots, i + 1, n, size, bufferSize)
  }

  /** The draw loop of `repaint` from call i to call n. */
  function DrawLoop(i: nat, n: nat): (t: seq<Call>)
    requires i <= n
    ensures |t| == n - i
    ensures forall k :: i <= k < n ==> t[k - i] == DrawArrays(TriangleStrip, k * VerticesPerPrim, VerticesPerPrim)
    decreases n - i
  {
    if i == n then [] else [DrawArrays(TriangleStrip, i * VerticesPerPrim, VerticesPerPrim)] + DrawLoop(i + 1, n)
  }

  /** One triangle-strip draw per pending call, in insertion order. */
  function DrawSchedule(n: nat): seq<Call> {
    seq(n, i requires 0 <= i < n => DrawArrays(TriangleStrip, i * VerticesPerPrim, VerticesPerPrim))
  }

  /** Uploads of the first m calls, call i at byte offset i * size. */
  function UploadSchedule(slots: seq<DrawCall>, m: nat, size: nat): seq<Call>
    requires m <= |slots|
  {
    seq(m, i requires 0 <= i < m => BufferSubData(i * size, size, slots[i].verts))
  }

  /** How many of the first n calls fit whole in a buffer of `bufferSize` bytes. */
  function FittingCalls(p: Platform, n: nat, bufferSize: nat): (m: nat)
    ensures m <= n
  {
    Min(n, bufferSize / DrawCallBytes(p))
  }

  function DiagnosticIfTooMany(n: nat): seq<Call> {
    if n > GlMaxVertexAttribs then [LogTooManyCalls(n)] else []
  }

  function UploadPhase(r: Renderer, n: nat, bufferSize: nat): seq<Call>
    requires n <= |r.batch.slots|
  {
    if r.vbo != 0 then [BindBuffer(r.vbo)] + UploadLoop(r.batch.slots, 0, n, DrawCallBytes(r.platform), bufferSize)
    else []
  }

  /** The binds, enables and attribute pointers before the draw loop, with the
      pointers declared at `stride`. */
  function SetupPhase(r: Renderer, stride: nat): seq<Call> {
    [BindBuffer(r.vbo), UseProgram(r.program),
     EnableAttrib(r.posIndex), EnableAttrib(r.colorIndex),
     AttribPointer(r.posIndex, VertexPosSize, stride, VertexPosOffset * FloatSize),
     AttribPointer(r.colorIndex, VertexColorSize, stride, VertexColorOffset * FloatSize),
     UniformMatrixAt(r.mvpIndex, CpuMvp())]
  }

  function TeardownPhase(r: Renderer): seq<Call> {
    [DisableAttrib(r.posIndex), DisableAttrib(r.colorIndex), BindBuffer(0), UseProgram(0)]
  }

  datatype RepaintResult = RepaintResult(renderer: Renderer, trace: seq<Call>)

  /** The binding state `repaint` leaves when it drew: both attributes it
      enabled are disabled again, and no buffer or program is bound. */
  function Restored(s: GlState, r: Renderer): GlState {
    s.(enabled := s.enabled - {r.posIndex, r.colorIndex}, arrayBuffer := 0, program := 0)
  }

  /** `repaint` as written, with `bufferSize` the size `glGetBufferParameteriv`
      reports for the bound buffer: both attribute pointers are declared at the
      stride of eight floats. More than `GL_MAX_VERTEX_ATTRIBS` pending calls
      only print a diagnostic before everything else. */
  function Repaint(r: Renderer, bufferSize: nat): (out: RepaintResult)
    requires r.batch.drawCalls <= |r.batch.slots|
    ensures out.renderer == r.(batch := ResetTotalCalls(r.batch))
    ensures Keep(out.trace, IsDrawArrays) == DrawSchedule(r.batch.drawCalls)
    ensures Keep(out.trace, IsUpload) ==
      if r.vbo == 0 || r.batch.drawCalls == 0 then []
      else UploadSchedule(r.batch.slots, FittingCalls(r.platform, r.batch.drawCalls, bufferSize),
                          DrawCallBytes(r.platform))
    ensures r.batch.drawCalls == 0 ==> out.trace == Present(r.platform)
    ensures r.batch.drawCalls > 0 ==> forall s :: Run(s, out.trace) == Restored(s, r)
    ensures r.batch.drawCalls > 0 ==>
      Keep(out.trace, IsAttribPointer) ==
        [AttribPointer(r.posIndex, 2, 32, 0), AttribPointer(r.colorIndex, 4, 32, 16)]
    ensures |out.trace| >= |Present(r.platform)| > 0
    ensures out.trace[|out.trace| - |Present(r.platform)|..] == Present(r.platform)
    ensures out.trace[0].LogTooManyCalls? <==> r.batch.drawCalls > GlMaxVertexAttribs
    ensures out.trace[0].LogTooManyCalls? ==> out.trace[0].calls == r.batch.drawCalls
  {
    var n := r.batch.drawCalls;
    var done := r.(batch := ResetTotalCalls(r.batch));
    if n == 0 then
      RepaintResult(done, Present(r.platform))
    else
      DrawingTraceFacts(r, n, bufferSize, AsWrittenStride);
      DrawingTraceStartsWithDiagnostic(r, n, bufferSize, AsWrittenStride);
      RepaintResult(done, DrawingTrace(r, n, bufferSize, AsWrittenStride))
  }

  /** `repaint` with the stride corrected to `sizeof(vert)`: the same draws,
      uploads, restored state, diagnostic and frame end as the code as
      written, with both attribute pointers declared at the vertex size. */
  function RepaintCorrected(r: Renderer, bufferSize: nat): (out: RepaintResult)
    requires r.batch.drawCalls <= |r.batch.slots|
    ensures out.renderer == Repaint(r, bufferSize).renderer
    ensures Keep(out.trace, IsDrawArrays) == Keep(Repaint(r, bufferSize).trace, IsDrawArrays)
    ensures Keep(out.trace, IsUpload) == Keep(Repaint(r, bufferSize).trace, IsUpload)
    ensures forall s :: Run(s, out.trace) == Run(s, Repaint(r, bufferSize).trace)
    ensures r.batch.drawCalls == 0 ==> out.trace == Repaint(r, bufferSize).trace
    ensures r.batch.drawCalls > 0 ==>
      Keep(out.trace, IsAttribPointer) ==
        [AttribPointer(r.posIndex, 2, VertBytes(r.platform), 0),
         AttribPointer(r.colorIndex, 4, VertBytes(r.platform), 16)]
    ensures out.trace[0] == Repaint(r, bufferSize).trace[0]
  {
    var n := r.batch.drawCalls;
    var done := r.(batch := ResetTotalCalls(r.batch));
    if n == 0 then
      RepaintResult(done, Present(r.platform))
    else
      DrawingTraceFacts(r, n, bufferSize, AttribStride(r.platform));
      DrawingTraceFacts(r, n, bufferSize, AsWrittenStride);
      DrawingTraceStartsWithDiagnostic(r, n, bufferSize, AttribStride(r.platform));
      DrawingTraceStartsWithDiagnostic(r, n, bufferSize, AsWrittenStride);
      RepaintResult(done, DrawingTrace(r, n, bufferSize, AttribStride(r.platform)))
  }

  /** The calls `repaint` makes when there is at least one pending call. */
  function DrawingTrace(r: Renderer, n: nat, bufferSize: nat, stride: nat): seq<Call>
    requires n <= |r.batch.slots|
  {
    DiagnosticIfTooMany(n) + UploadPhase(r, n, bufferSize) + SetupPhase(r, stride) + DrawLoop(0, n)
    + TeardownPhase(r) + Present(r.platform)
  }

  /** The diagnostic comes first exactly when there are too many calls; any
      other drawing repaint starts by binding a buffer. */
  lemma DrawingTraceStartsWithDiagnostic(r: Renderer, n: nat, bufferSize: nat, stride: nat)
    requires 0 < n <= |r.batch.slots|
    ensures DrawingTrace(r, n, bufferSize, stride)[0] ==
      if n > GlMaxVertexAttribs then LogTooManyCalls(n) else BindBuffer(r.vbo)
  {
    var d, u, st := DiagnosticIfTooMany(n), UploadPhase(r, n, bufferSize), SetupPhase(r, stride);
    var head := d + u + st;
    assert |head| > 0 && head[0] == (if n > GlMaxVertexAttribs then LogTooManyCalls(n) else BindBuffer(r.vbo)) by {
      if n > GlMaxVertexAttribs {
        assert (d + u)[0] == d[0];
      } else if r.vbo != 0 {
        assert d + u == u;
      } else {
        assert d + u == [];
      }
    }
    var t := DrawingTrace(r, n, bufferSize, stride);
    assert t == head + DrawLoop(0, n) + TeardownPhase(r) + Present(r.platform);
    assert t[0] == (head + DrawLoop(0, n))[0] == head[0];
  }

  /** A batch filled through the corrected `Vita_Draw` never reaches the
      diagnostic: it holds at most `MaxVertices` calls. */
  lemma ValidBatchNeverWarns(r: Renderer, bufferSize: nat)
    requires Valid(r.batch)
    ensures !Repaint(r, bufferSize).trace[0].LogTooManyCalls?
    ensures DiagnosticIfTooMany(r.batch.drawCalls) == []
  {
  }

  lemma MulMonotone(a: nat, b: nat, c: nat)
    requires a <= b
    ensures a * c <= b * c
  {
    assert b * c == a * c + (b - a) * c;
  }

  /** For size > 0: call k fits exactly when k < bufferSize / size. */
  lemma FitsIff(k: nat, size: nat, bufferSize: nat)
    requires size > 0
    ensures Fits(k, size, bufferSize) <==> k < bufferSize / size
  {
    var q := bufferSize / size;
    assert bufferSize == q * size + bufferSize % size;
    if k < q {
      MulMonotone(k + 1, q, size);
      assert k * size + size == (k + 1) * size;
    } else {
      MulMonotone(q + 1, k + 1, size);
      assert k * size + size == (k + 1) * size;
      assert (q + 1) * size == q * size + size;
    }
  }

  /** The uploads of the upload loop: the first m calls, where m is how many
      whole calls fit in the buffer. */
  lemma UploadLoopUploads(slots: seq<DrawCall>, n: nat, size: nat, bufferSize: nat)
    requires 0 < size && n <= |slots|
    ensures Keep(UploadLoop(slots, 0, n, size, bufferSize), IsUpload)
         == UploadSchedule(slots, Min(n, bufferSize / size), size)
  {
    var loop := UploadLoop(slots, 0, n, size, bufferSize);
    var m := Min(n, bufferSize / size);
    var head, tail := loop[..m], loop[m..];
    assert loop == head + tail;
    forall i | 0 <= i < m
      ensures head[i] == BufferSubData(i * size, size, slots[i].verts)
    {
      FitsIff(i, size, bufferSize);
      assert loop[i - 0] == UploadStep(slots, i, size, bufferSize);
    }
    forall i | 0 <= i < |tail|
      ensures !IsUpload(tail[i])
    {
      FitsIff(m + i, size, bufferSize);
      assert loop[(m + i) - 0] == UploadStep(slots, m + i, size, bufferSize);
    }
    KeepAll(head, IsUpload);
    KeepNone(tail, IsUpload);
    KeepAppend(head, tail, IsUpload);
    assert head == UploadSchedule(slots, m, size);
  }

  lemma UploadPhaseUploads(r: Renderer, n: nat, bufferSize: nat)
    requires 0 < n <= |r.batch.slots|
    ensures Keep(UploadPhase(r, n, bufferSize), IsUpload) ==
      if r.vbo == 0 then []
      else UploadSchedule(r.batch.slots, FittingCalls(r.platform, n, bufferSize), DrawCallBytes(r.platform))
  {
    if r.vbo != 0 {
      var size := DrawCallBytes(r.platform);
      UploadLoopUploads(r.batch.slots, n, size, bufferSize);
      KeepAppend([BindBuffer(r.vbo)], UploadLoop(r.batch.slots, 0, n, size, bufferSize), IsUpload);
    }
  }

  /** Keep over the six phases of a drawing trace. */
  lemma KeepSix(a: seq<Call>, b: seq<Call>, c: seq<Call>, d: seq<Call>, e: seq<Call>, f: seq<Call>,
                keep: Call -> bool)
    ensures Keep(a + b + c + d + e + f, keep)
         == Keep(a, keep) + Keep(b, keep) + Keep(c, keep) + Keep(d, keep) + Keep(e, keep) + Keep(f, keep)
  {
    KeepAppend(a, b, keep);
    KeepAppend(a + b, c, keep);
    KeepAppend(a + b + c, d, keep);
    KeepAppend(a + b + c + d, e, keep);
    KeepAppend(a + b + c + d + e, f, keep);
  }

  /** Run over the six phases of a drawing trace. */
  lemma RunSix(st: GlState, a: seq<Call>, b: seq<Call>, c: seq<Call>, d: seq<Call>, e: seq<Call>, f: seq<Call>)
    ensures Run(st, a + b + c + d + e + f) == Run(Run(Run(Run(Run(Run(st, a), b), c), d), e), f)
  {
    RunAppend(st, a + b + c + d + e, f);
    RunAppend(st, a + b + c + d, e);
    RunAppend(st, a + b + c, d);
    RunAppend(st, a + b, c);
    RunAppend(st, a, b);
  }

  lemma DrawingTraceFacts(r: Renderer, n: nat, bufferSize: nat, stride: nat)
    requires 0 < n <= |r.batch.slots|
    ensures Keep(DrawingTrace(r, n, bufferSize, stride), IsDrawArrays) == DrawSchedule(n)
    ensures Keep(DrawingTrace(r, n, bufferSize, stride), IsUpload) ==
      if r.vbo == 0 then []
      else UploadSchedule(r.batch.slots, FittingCalls(r.platform, n, bufferSize), DrawCallBytes(r.platform))
    ensures forall s :: Run(s, DrawingTrace(r, n, bufferSize, stride)) == Restored(s, r)
    ensures Keep(DrawingTrace(r, n, bufferSize, stride), IsAttribPointer) ==
      [AttribPointer(r.posIndex, 2, stride, 0), AttribPointer(r.colorIndex, 4, stride, 16)]
  {
    DrawingTraceDraws(r, n, bufferSize, stride);
    DrawingTraceUploads(r, n, bufferSize, stride);
    DrawingTraceAttribPointers(r, n, bufferSize, stride);
    forall s
      ensures Run(s, DrawingTrace(r, n, bufferSize, stride)) == Restored(s, r)
    {
      DrawingTraceRestores(r, n, bufferSize, stride, s);
    }
  }

  /** The phases made only of diagnostics, teardown and frame end keep nothing. */
  lemma QuietPhaseKeeps(r: Renderer, n: nat, keep: Call -> bool)
    requires forall c: Call :: (c.LogTooManyCalls? || c.DisableAttrib? || c.BindBuffer? || c.UseProgram?
                                || c.SwapBuffers? || c.PollEvents?) ==> !keep(c)
    ensures Keep(DiagnosticIfTooMany(n), keep) == []
    ensures Keep(TeardownPhase(r), keep) == []
    ensures Keep(Present(r.platform), keep) == []
  {
    KeepNone(DiagnosticIfTooMany(n), keep);
    KeepNone(TeardownPhase(r), keep);
    KeepNone(Present(r.platform), keep);
  }

  /** The draw loop is exactly the draw schedule and holds nothing else. */
  lemma DrawLoopKeeps(n: nat)
    ensures Keep(DrawLoop(0, n), IsDrawArrays) == DrawSchedule(n)
    ensures Keep(DrawLoop(0, n), IsUpload) == []
    ensures Keep(DrawLoop(0, n), IsAttribPointer) == []
  {
    var draws := DrawLoop(0, n);
    forall i | 0 <= i < n
      ensures draws[i] == DrawArrays(TriangleStrip, i * VerticesPerPrim, VerticesPerPrim)
    {
      assert draws[i - 0] == draws[i];
    }
    KeepAll(draws, IsDrawArrays);
    assert draws == DrawSchedule(n);
    KeepNone(draws, IsUpload);
    KeepNone(draws, IsAttribPointer);
  }

  lemma UploadPhaseNoDrawsNoPointers(r: Renderer, n: nat, bufferSize: nat)
    requires n <= |r.batch.slots|
    ensures Keep(UploadPhase(r, n, bufferSize), IsDrawArrays) == []
    ensures Keep(UploadPhase(r, n, bufferSize), IsAttribPointer) == []
  {
    var up := UploadPhase(r, n, bufferSize);
    if r.vbo != 0 {
      var loop := UploadLoop(r.batch.slots, 0, n, DrawCallBytes(r.platform), bufferSize);
      forall i | 0 <= i < |up|
        ensures !IsDrawArrays(up[i]) && !IsAttribPointer(up[i])
      {
        if i > 0 {
          assert up[i] == loop[i - 1] == UploadStep(r.batch.slots, i - 1, DrawCallBytes(r.platform), bufferSize);
        }
      }
    }
    KeepNone(up, IsDrawArrays);
    KeepNone(up, IsAttribPointer);
  }

  /** The setup phase holds no draws and no uploads, and declares the two
      attribute pointers in the order position, colour. */
  lemma SetupKeeps(r: Renderer, stride: nat)
    ensures Keep(SetupPhase(r, stride), IsDrawArrays) == []
    ensures Keep(SetupPhase(r, stride), IsUpload) == []
    ensures Keep(SetupPhase(r, stride), IsAttribPointer) ==
      [AttribPointer(r.posIndex, 2, stride, 0), AttribPointer(r.colorIndex, 4, stride, 16)]
  {
    KeepNone(SetupPhase(r, stride), IsDrawArrays);
    KeepNone(SetupPhase(r, stride), IsUpload);
    SetupPointers(r, stride);
  }

  lemma SetupPointers(r: Renderer, stride: nat)
    ensures Keep(SetupPhase(r, stride), IsAttribPointer) ==
      [AttribPointer(r.posIndex, 2, stride, 0), AttribPointer(r.colorIndex, 4, stride, 16)]
  {
    var setup := SetupPhase(r, stride);
    KeepFifthAndSixth(setup[0], setup[1], setup[2], setup[3], setup[4], setup[5], setup[6], IsAttribPointer);
    assert setup == [setup[0], setup[1], setup[2], setup[3], setup[4], setup[5], setup[6]];
  }

  /** Keep over seven calls of which only the fifth and sixth pass. */
  lemma KeepFifthAndSixth(a: Call, b: Call, c: Call, d: Call, e: Call, f: Call, g: Call, keep: Call -> bool)
    requires !keep(a) && !keep(b) && !keep(c) && !keep(d) && keep(e) && keep(f) && !keep(g)
    ensures Keep([a, b, c, d, e, f, g], keep) == [e, f]
  {
    KeepNone([a, b, c, d], keep);
    KeepAll([e, f], keep);
    KeepNone([g], keep);
    KeepAppend([a, b, c, d], [e, f], keep);
    KeepAppend([a, b, c, d] + [e, f], [g], keep);
    assert [a, b, c, d, e, f, g] == [a, b, c, d] + [e, f] + [g];
  }

  lemma DrawingTraceDraws(r: Renderer, n: nat, bufferSize: nat, stride: nat)
    requires 0 < n <= |r.batch.slots|
    ensures Keep(DrawingTrace(r, n, bufferSize, stride), IsDrawArrays) == DrawSchedule(n)
  {
    QuietPhaseKeeps(r, n, IsDrawArrays);
    UploadPhaseNoDrawsNoPointers(r, n, bufferSize);
    SetupKeeps(r, stride);
    KeepOnlyFourth(DiagnosticIfTooMany(n), UploadPhase(r, n, bufferSize), SetupPhase(r, stride),
                   DrawLoop(0, n), TeardownPhase(r), Present(r.platform), IsDrawArrays);
    DrawLoopKeeps(n);
  }

  /** Keep over six phases of which only the fourth keeps anything. */
  lemma KeepOnlyFourth(a: seq<Call>, b: seq<Call>, c: seq<Call>, d: seq<Call>, e: seq<Call>, f: seq<Call>,
                       keep: Call -> bool)
    requires Keep(a, keep) == [] && Keep(b, keep) == [] && Keep(c, keep) == []
    requires Keep(e, keep) == [] && Keep(f, keep) == []
    ensures Keep(a + b + c + d + e + f, keep) == Keep(d, keep)
  {
    KeepSix(a, b, c, d, e, f, keep);
  }

  lemma DrawingTraceUploads(r: Renderer, n: nat, bufferSize: nat, stride: nat)
    requires 0 < n <= |r.batch.slots|
    ensures Keep(DrawingTrace(r, n, bufferSize, stride), IsUpload) ==
      if r.vbo == 0 then []
      else UploadSchedule(r.batch.slots, FittingCalls(r.platform, n, bufferSize), DrawCallBytes(r.platform))
  {
    KeepSix(DiagnosticIfTooMany(n), UploadPhase(r, n, bufferSize), SetupPhase(r, stride), DrawLoop(0, n),
            TeardownPhase(r), Present(r.platform), IsUpload);
    QuietPhaseKeeps(r, n, IsUpload);
    SetupKeeps(r, stride);
    DrawLoopKeeps(n);
    UploadPhaseUploads(r, n, bufferSize);
  }

  lemma DrawingTraceAttribPointers(r: Renderer, n: nat, bufferSize: nat, stride: nat)
    requires 0 < n <= |r.batch.slots|
    ensures Keep(DrawingTrace(r, n, bufferSize, stride), IsAttribPointer) ==
      [AttribPointer(r.posIndex, 2, stride, 0), AttribPointer(r.colorIndex, 4, stride, 16)]
  {
    KeepSix(DiagnosticIfTooMany(n), UploadPhase(r, n, bufferSize), SetupPhase(r, stride), DrawLoop(0, n),
            TeardownPhase(r), Present(r.platform), IsAttribPointer);
    QuietPhaseKeeps(r, n, IsAttribPointer);
    UploadPhaseNoDrawsNoPointers(r, n, bufferSize);
    SetupKeeps(r, stride);
    DrawLoopKeeps(n);
  }

  /** The upload phase changes only the array-buffer binding. */
  lemma UploadPhaseRun(r: Renderer, n: nat, bufferSize: nat, s: GlState)
    requires n <= |r.batch.slots|
    ensures Run(s, UploadPhase(r, n, bufferSize)).enabled == s.enabled
    ensures Run(s, UploadPhase(r, n, bufferSize)).program == s.program
    ensures Run(s, UploadPhase(r, n, bufferSize)).texture == s.texture
  {
    if r.vbo != 0 {
      var loop := UploadLoop(r.batch.slots, 0, n, DrawCallBytes(r.platform), bufferSize);
      RunAppend(s, [BindBuffer(r.vbo)], loop);
      var s1 := s.(arrayBuffer := r.vbo);
      assert Run(s, [BindBuffer(r.vbo)]) == s1;
      forall i | 0 <= i < |loop|
        ensures Step(s1, loop[i]) == s1
      {
        assert loop[i] == UploadStep(r.batch.slots, i, DrawCallBytes(r.platform), bufferSize);
      }
      RunNeutral(s1, loop);
    }
  }

  /** Setup binds the buffer and program and enables both attributes. */
  lemma SetupRun(r: Renderer, stride: nat, s: GlState)
    ensures Run(s, SetupPhase(r, stride)) ==
      s.(arrayBuffer := r.vbo, program := r.program, enabled := s.enabled + {r.posIndex} + {r.colorIndex})
  {
    var q := SetupPhase(r, stride);
    var binds, pointers := q[..4], q[4..];
    assert q == binds + pointers;
    RunAppend(s, binds, pointers);
    RunFour(s, q[0], q[1], q[2], q[3]);
    assert binds == [q[0], q[1], q[2], q[3]];
    RunNeutral(Run(s, binds), pointers);
  }

  /** Teardown disables both attributes and unbinds buffer and program. */
  lemma TeardownRun(r: Renderer, s: GlState)
    ensures Run(s, TeardownPhase(r)) ==
      s.(enabled := s.enabled - {r.posIndex} - {r.colorIndex}, arrayBuffer := 0, program := 0)
  {
    var q := TeardownPhase(r);
    RunFour(s, q[0], q[1], q[2], q[3]);
    assert q == [q[0], q[1], q[2], q[3]];
  }

  /** Draws, diagnostics and the frame end leave the binding state alone. */
  lemma NeutralPhasesRun(r: Renderer, n: nat, s: GlState)
    ensures Run(s, DiagnosticIfTooMany(n)) == s
    ensures Run(s, DrawLoop(0, n)) == s
    ensures Run(s, Present(r.platform)) == s
  {
    RunNeutral(s, DiagnosticIfTooMany(n));
    var draws := DrawLoop(0, n);
    forall i | 0 <= i < |draws|
      ensures Step(s, draws[i]) == s
    {
      assert draws[i - 0] == DrawArrays(TriangleStrip, i * VerticesPerPrim, VerticesPerPrim);
    }
    RunNeutral(s, draws);
    RunNeutral(s, Present(r.platform));
  }

  lemma DrawingTraceRestores(r: Renderer, n: nat, bufferSize: nat, stride: nat, s: GlState)
    requires 0 < n <= |r.batch.slots|
    ensures Run(s, DrawingTrace(r, n, bufferSize, stride)) == Restored(s, r)
  {
    RunSix(s, DiagnosticIfTooMany(n), UploadPhase(r, n, bufferSize), SetupPhase(r, stride), DrawLoop(0, n),
           TeardownPhase(r), Present(r.platform));
    NeutralPhasesRun(r, n, s);
    var s1 := Run(s, UploadPhase(r, n, bufferSize));
    UploadPhaseRun(r, n, bufferSize, s);
    var s2 := Run(s1, SetupPhase(r, stride));
    SetupRun(r, stride, s1);
    NeutralPhasesRun(r, n, s2);
    var s3 := Run(s2, TeardownPhase(r));
    TeardownRun(r, s2);
    NeutralPhasesRun(r, n, s3);
    assert s3.enabled == s.enabled - {r.posIndex, r.colorIndex};
  }
}

=== FILE: shading2d.dfy ===
/** Shader set-up of the 2D renderer: `LoadShader` and `initGLShading` of
    src/vgl_renderer.c. The GL driver's answers (object ids, compile and link
    status, attribute and uniform locations) are parameters. */
module Shading2D {
  import opened VglTypes
  import opened Gl
  import opened Renderer2D

  /** What the driver answers for one shader: the id `glCreateShader` returns
      (0 on failure) and the `GL_COMPILE_STATUS` it reports. */
  datatype ShaderAnswer = ShaderAnswer(id: nat, compiled: bool)

  /** Everything the driver answers during `initGLShading`. */
  datatype ShadingOracle = ShadingOracle(vertex: ShaderAnswer, fragment: ShaderAnswer,
                                         program: nat, linked: bool,
                                         posLoc: int, mvpLoc: int, colorLoc: int)

  datatype LoadResult = LoadResult(shader: nat, trace: seq<Call>)

  /** `LoadShader`: 0 when creation fails, or when compilation fails (the
      shader is then deleted); otherwise the created id. */
  function LoadShader(kind: ShaderKind, a: ShaderAnswer): (r: LoadResult)
    ensures r.shader != 0 <==> a.id != 0 && a.compiled
    ensures r.shader != 0 ==> r.shader == a.id
    ensures |r.trace| >= 1 && r.trace[0] == CreateShader(kind)
    ensures DeleteShader(a.id) in r.trace <==> a.id != 0 && !a.compiled
    ensures CompileShader(a.id) in r.trace <==> a.id != 0
  {
    if a.id == 0 then LoadResult(0, [CreateShader(kind)])
    else if !a.compiled then LoadResult(0, [CreateShader(kind), CompileShader(a.id), DeleteShader(a.id)])
    else LoadResult(a.id, [CreateShader(kind), CompileShader(a.id)])
  }

  /** The attribute name bound to location 0 before linking. */
  function PositionAttribName(p: Platform): string {
    if p == Vita then "aPosition" else "vPosition"
  }

  datatype ShadingResult = ShadingResult(status: int, renderer: Renderer, trace: seq<Call>)

  /** The locations the checks at the end of `initGLShading` look at: on the
      Vita only the position is queried, and the colour and MVP locations keep
      the values they had. */
  function QueriedLocations(p: Platform, r: Renderer, o: ShadingOracle): (rr: Renderer) {
    if p == Vita then r.(posIndex := o.posLoc)
    else r.(posIndex := o.posLoc, mvpIndex := o.mvpLoc, colorIndex := o.colorLoc)
  }

  /** Independent statement of when `initGLShading` succeeds. */
  predicate ShadingSucceeds(p: Platform, r: Renderer, o: ShadingOracle) {
    && o.vertex.id != 0 && o.vertex.compiled
    && o.fragment.id != 0 && o.fragment.compiled
    && o.program != 0 && o.linked
    && o.posLoc >= 0
    && (if p == Vita then r.mvpIndex >= 0 && r.colorIndex >= 0 else o.mvpLoc >= 0 && o.colorLoc >= 0)
  }

  /** `initGLShading` on platform `p`, starting from the renderer globals `r`. */
  function InitShading(p: Platform, r: Renderer, o: ShadingOracle): (res: ShadingResult)
    ensures res.status == 0 || res.status == -1
    ensures res.status == 0 <==> ShadingSucceeds(p, r, o)
    ensures res.status == 0 ==>
      && res.renderer.program == o.program
      && res.renderer.posIndex >= 0 && res.renderer.mvpIndex >= 0 && res.renderer.colorIndex >= 0
    ensures LinkProgram(o.program) in res.trace <==>
      o.vertex.id != 0 && o.vertex.compiled && o.fragment.id != 0 && o.fragment.compiled && o.program != 0
    ensures CreateShader(FragmentShader) in res.trace <==> o.vertex.id != 0 && o.vertex.compiled
    ensures res.renderer.vbo == r.vbo && res.renderer.batch == r.batch
  {
    var vs := LoadShader(VertexShader, o.vertex);
    if vs.shader == 0 then
      ShadingResult(-1, r, vs.trace)
    else
      var fs := LoadShader(FragmentShader, o.fragment);
      var t1 := vs.trace + fs.trace;
      assert CreateShader(FragmentShader) in t1 by { assert t1[|vs.trace|] == fs.trace[0]; }
      if fs.shader == 0 then
        ShadingResult(-1, r, t1)
      else
        var t2 := t1 + [CreateProgram];
        var withProgram := r.(program := o.program);
        if o.program == 0 then
          ShadingResult(-1, withProgram, t2)
        else
          var t3 := t2 + [AttachShader(o.program, vs.shader), AttachShader(o.program, fs.shader),
                          BindAttribLocation(o.program, 0, PositionAttribName(p)), LinkProgram(o.program)];
          if !o.linked then
            ShadingResult(-1, withProgram, t3)
          else
            var located := QueriedLocations(p, withProgram, o);
            var ok := located.posIndex >= 0 && located.mvpIndex >= 0 && located.colorIndex >= 0;
            ShadingResult(if ok then 0 else -1, located, t3)
  }

  /** After a successful `initGLShading`, the attributes `repaint` enables and
      the program it uses are the ones the shader set-up found. */
  lemma SuccessfulShadingFeedsRepaint(p: Platform, r: Renderer, o: ShadingOracle)
    requires InitShading(p, r, o).status == 0
    ensures InitShading(p, r, o).renderer.program != 0
    ensures p == Desktop ==> InitShading(p, r, o).renderer.colorIndex == o.colorLoc
    ensures p == Vita ==> InitShading(p, r, o).renderer.colorIndex == r.colorIndex
    ensures InitShading(p, r, o).renderer.posIndex == o.posLoc
  {
  }
}

=== FILE: vgl_types.dfy ===
/** The packed vertex and draw-call layout of the 2D batch renderer
    (src/vgl_renderer.h). Sizes are in bytes and depend on the platform's
    pointer width, because every vertex carries an `obj_ptr`. */
module VglTypes {

  /** The two build targets: the handheld (32-bit ARM, 4-byte pointers) and a
      64-bit desktop build (8-byte pointers). */
  datatype Platform = Vita | Desktop

  const FloatSize: nat := 4

  function PointerSize(p: Platform): nat {
    match p
    case Vita => 4
    case Desktop => 8
  }

  const VerticesPerQuad: nat := 4
  const VerticesPerTri: nat := 3
  const VerticesPerPrim: nat := VerticesPerQuad

  const VertexPosSize: nat := 2
  const VertexTexcoordSize: nat := 2
  const VertexColorSize: nat := 4

  const VertexPosOffset: nat := 0
  const VertexTexcoordOffset: nat := 2
  const VertexColorOffset: nat := 4

  /** Number of float elements per vertex the attribute stride is computed from. */
  const VertexAttrElemCount: nat := 8

  /** Number of `DrawCall` slots the batch storage and the GPU buffer are sized for. */
  const MaxVertices: nat := 1024

  /** `VERTEX_ATTRIB_TOTAL_SIZE_1`: eight floats followed by one pointer. */
  function VertexAttribTotalSize1(p: Platform): nat {
    VertexAttrElemCount * FloatSize + PointerSize(p)
  }

  /** One packed vertex: screen position, texture coordinates, colour, and the
      address of a shared extra-data record (0 for NULL). */
  datatype Vert = Vert(x: real, y: real, s: real, v: real,
                       r: real, g: real, b: real, a: real, objPtr: nat)

  /** One primitive: `VerticesPerPrim` vertices, written as a triangle strip. */
  datatype DrawCall = DrawCall(verts: seq<Vert>) {
    predicate Valid() {
      |verts| == VerticesPerPrim
    }
  }

  /** `n` copies of `v`. */
  function Repeat(v: nat, n: nat): (s: seq<nat>)
    ensures |s| == n
    ensures forall i :: 0 <= i < n ==> s[i] == v
  {
    if n == 0 then [] else [v] + Repeat(v, n - 1)
  }

  /** The byte sizes of the fields of the packed `vert`, in declaration order:
      x, y, s, v, r, g, b, a, then `obj_ptr`. */
  function VertFieldSizes(p: Platform): seq<nat> {
    Repeat(FloatSize, VertexAttrElemCount) + [PointerSize(p)]
  }

  function Sum(s: seq<nat>): nat {
    if |s| == 0 then 0 else s[0] + Sum(s[1..])
  }

  lemma {:induction false} SumAppend(a: seq<nat>, b: seq<nat>)
    ensures Sum(a + b) == Sum(a) + Sum(b)
    decreases |a|
  {
    if |a| == 0 {
      assert a + b == b;
    } else {
      assert (a + b)[1..] == a[1..] + b;
      SumAppend(a[1..], b);
    }
  }

  lemma {:induction false} SumRepeat(v: nat, n: nat)
    ensures Sum(Repeat(v, n)) == n * v
  {
    if n > 0 {
      assert Repeat(v, n)[1..] == Repeat(v, n - 1);
      SumRepeat(v, n - 1);
    }
  }

  /** `sizeof(vert)`: the struct is packed, so its size is the sum of its fields. */
  function VertBytes(p: Platform): (n: nat)
    ensures n == VertexAttribTotalSize1(p)
    ensures n > VertexAttrElemCount * FloatSize
  {
    SumAppend(Repeat(FloatSize, VertexAttrElemCount), [PointerSize(p)]);
    SumRepeat(FloatSize, VertexAttrElemCount);
    assert Sum([PointerSize(p)]) == PointerSize(p);
    Sum(VertFieldSizes(p))
  }

  /** `sizeof(DrawCall)`, which is also `sizeof(calls[i].verts)`. */
  function DrawCallBytes(p: Platform): (n: nat)
    ensures n == VerticesPerPrim * VertexAttribTotalSize1(p)
  {
    VerticesPerPrim * VertBytes(p)
  }

  /** `_vgl_pending_total_size`: the BYTE size of the batch storage. */
  function PendingTotalSize(p: Platform): (n: nat)
    ensures n == MaxVertices * DrawCallBytes(p)
    ensures n > MaxVertices
  {
    DrawCallBytes(p) * MaxVertices
  }

  /** A run of float elements inside one vertex. */
  datatype Slice = Slice(offset: nat, size: nat)

  /** The slices cover [start, end) exactly, one after another, none empty. */
  ghost predicate Tiles(s: seq<Slice>, start: nat, end: nat)
    decreases |s|
  {
    if |s| == 0 then start == end
    else s[0].offset == start && s[0].size > 0 && Tiles(s[1..], start + s[0].size, end)
  }

  /** Position, texture-coordinate and colour slices of a vertex, in that order. */
  function AttributeSlices(): (s: seq<Slice>)
    ensures |s| == 3
    ensures Tiles(s, 0, VertexAttrElemCount)
  {
    var s := [Slice(VertexPosOffset, VertexPosSize),
              Slice(VertexTexcoordOffset, VertexTexcoordSize),
              Slice(VertexColorOffset, VertexColorSize)];
    assert Tiles(s[1..][1..][1..], 8, 8);
    assert Tiles(s[1..][1..], 4, 8);
    assert Tiles(s[1..], 2, 8);
    s
  }

  /** Tiling slices are pairwise disjoint, ordered, and stay inside [start, end). */
  lemma {:induction false} TilesDisjoint(s: seq<Slice>, start: nat, end: nat)
    requires Tiles(s, start, end)
    ensures forall i :: 0 <= i < |s| ==> start <= s[i].offset && s[i].offset + s[i].size <= end
    ensures forall i, j :: 0 <= i < j < |s| ==> s[i].offset + s[i].size <= s[j].offset
    decreases |s|
  {
    if |s| > 0 {
      TilesDisjoint(s[1..], start + s[0].size, end);
      assert forall i :: 1 <= i < |s| ==> s[i] == s[1..][i - 1];
    }
  }

  /** The three attribute slices of a vertex are disjoint and lie within its
      `VertexAttrElemCount` elements. */
  lemma AttributeSlicesDisjoint()
    ensures forall i, j :: 0 <= i < j < 3 ==>
      AttributeSlices()[i].offset + AttributeSlices()[i].size <= AttributeSlices()[j].offset
    ensures forall i :: 0 <= i < 3 ==>
      AttributeSlices()[i].offset + AttributeSlices()[i].size <= VertexAttrElemCount
  {
    TilesDisjoint(AttributeSlices(), 0, VertexAttrElemCount);
  }
}
